=== FILE: README.md ===
# WYGIWYH API MCP server — a Dafny model of its core

`server.py` is an MCP server that exposes the REST API of the WYGIWYH
expense tracker as tools. This project models its core and proves properties
about it. The core has four parts:

- **Schema converter** (`convert_openapi_to_json_schema`). It turns an OpenAPI
  schema fragment into the JSON Schema of a tool input, in four ways:
  - it resolves `#/components/schemas/<Name>` references;
  - it merges `allOf` lists;
  - for `oneOf`, it takes the first alternative;
  - otherwise it copies `type`, converts the properties that are not
    read-only, filters `required`, and copies a fixed list of descriptive
    keys.
- **Catalog builder** (`generate_tools_from_openapi`). It makes one tool per
  (path, method) pair whose method is GET, POST, PUT, PATCH or DELETE, in
  document order:
  - the name is the `operationId`, else `<method>_<path>`;
  - the description is `description`, else `summary`, else
    `<METHOD> <path>`, cut to 1024 characters;
  - the inputs are `path_`/`query_`-prefixed parameters and `body_`-prefixed
    request-body properties.
- **Credential** (`get_auth_header`). This is the HTTP Basic token, which is
  Base64 of the UTF-8 bytes of `user:password` (section 2 of RFC 7617,
  section 4 of RFC 4648).
- **Dispatcher** (`call_tool`). It works in this order:
  1. the credential gate;
  2. lookup of the operation by `operationId`;
  3. routing of the flat arguments by prefix;
  4. substitution of `{name}` placeholders in the path;
  5. the request: a JSON body only for POST/PUT/PATCH with body arguments;
  6. classification of the single HTTP exchange:
     - 204 gives a fixed payload;
     - otherwise the JSON body is returned;
     - an HTML reply gives a 500-character preview;
     - any other reply gives the raw text;
     - a non-2xx status is an HTTP error whose detail is the JSON body, the
       HTML `<title>`, or the start of the text.

Modules:

| file | module | contents |
|---|---|---|
| `wrappers.dfy` | `Wrappers` | `Option`, `Result` |
| `json.dfy` | `JsonTree` | JSON values. Objects are association lists that keep insertion order. Dict lookup, assignment and `update` |
| `text.dfy` | `Text` | `find`, `in`, `split`, `join`, `replace`, `upper`, slicing, `str(int)` |
| `python.dfy` | `PyOps` | Python's `in`, `[]`, `.get`, `.items()`, iteration, truthiness and `str()` on JSON values. A Python exception becomes an `Err(Fault)` |
| `schema.dfy` | `SchemaConverter` | the converter |
| `catalog.dfy` | `Catalog` | the catalog builder |
| `auth.dfy` | `BasicAuth` | UTF-8, Base64 and the credential |
| `dispatch.dfy` | `Dispatch` | lookup, argument split, URL and request, classification, rendering, title search |
| `schema_props.dfy` | `SchemaFacts` | properties of the converter |
| `catalog_props.dfy` | `CatalogFacts` | properties of the catalog builder |
| `dispatch_props.dfy` | `DispatchFacts` | properties of the dispatcher |

How the model is set up:

- **Exceptions.** Every exception the core can raise is an error value:
  - `KeyError`, `IndexError` and `TypeError`/`AttributeError`;
  - `RecursionLimit` for unbounded `$ref` recursion;
  - `ValidationError` when the `Tool` record rejects a non-string name or
    description.
- **Recursion bound.** The converter takes a fuel argument. `ConvertFuel`
  proves that any fuel large enough gives the same answer.
- **The environment.** The credentials and the base URL come in as a
  `Config`.
- **The HTTP call.** It is the function parameter `send`.

## Model

| member | source | states |
|---|---|---|
| BasicAuth.Base64RoundTrip | server.py:29 | Decoding the Base64 text of any byte string gives back exactly those bytes |
| BasicAuth.Base64Length | server.py:29 | The Base64 text of n bytes has 4·⌈n/3⌉ characters |
| BasicAuth.AuthHeaderSpec | server.py:23-30 | The token is empty exactly when the user name or the password is empty; otherwise it decodes to the UTF-8 bytes of `user:password` |
| JsonTree.PutGet | server.py:152 | After `d[k] = v`, `k` reads `v` and every other key reads what it read before |
| JsonTree.UpdateGet | server.py:86 | After `d.update(g)`, a key of `g` reads g's value and any other key is unchanged |
| Text.SplitJoin | server.py:72 | Joining the pieces of `s.split(sep)` with `sep` gives back `s` |
| Text.ReplaceAllIsJoinOfSplit | server.py:244 | `s.replace(p, r)` equals `r.join(s.split(p))` |
| SchemaConverter.DedupSpec | server.py:96 | `list(set(xs))` keeps only values of `xs`, exactly one value from every class of Python-equal values in `xs` (`True == 1`, `False == 0`), namely the first of that class listed |
| SchemaConverter.DedupBoolInt | server.py:96 | `list(set([True, 1]))` has a single element, since `True == 1` in Python |
| PyOps.EqKeyIsPyEq | server.py:96 | Two hashable values have the same de-duplication key exactly when Python's `==` holds between them |
| SchemaConverter.KeepDeclared | server.py:113 | The kept names are the input names that are declared properties, each as many times as it is listed, no other name, in their original order. An unhashable name raises |
| SchemaFacts.ConvertFuel | server.py:64-119 | Conversion that does not hit the recursion bound gives the same result under any larger bound |
| SchemaFacts.FalsySchema | server.py:66-67 | An empty or falsy schema converts to `{"type": "object", "properties": {}}` |
| SchemaFacts.ResolveLocalRef | server.py:71-76 | `#/components/schemas/<Name>` designates the component schema of that name, or nothing when there is none |
| SchemaFacts.RefResolvedFirst | server.py:71-76 | A resolvable `$ref` is converted as its target, before any `allOf`/`oneOf` of the referring schema is looked at |
| SchemaFacts.MergeAllProperties | server.py:83-86 | Merged properties are the union of the sub-schemas' properties, and a later sub-schema wins on a shared name |
| SchemaFacts.MergeAllRequired | server.py:87-88 | Required names accumulate in sub-schema order |
| SchemaFacts.MergeAllType | server.py:89-90 | The merged type is the first truthy type of the converted sub-schemas, and a type once set is never replaced |
| SchemaFacts.MergedEntries | server.py:92-98 | The merged schema has its type (default "object"), has properties/required only when non-empty, and has no other key |
| SchemaFacts.AllOfMerges | server.py:78-98 | An `allOf` schema converts to the merge of its converted sub-schemas: first truthy type, last-wins property union, duplicate-free union of required names, nothing else copied |
| SchemaFacts.OneOfFirst | server.py:100-101 | A `oneOf` schema converts to its first alternative unconverted, or raises IndexError when the list is empty |
| SchemaFacts.ConvertPropsSpec | server.py:106-110 | Each property is converted recursively unless its schema is read-only. Read-only properties are absent |
| SchemaFacts.PlainRequiredSpec | server.py:112-113 | `required` keeps, in order, the listed names that are converted properties, each as many times as it is listed, and no other name |
| SchemaFacts.CopyKeysSpec | server.py:115-117 | Exactly the descriptive keys present in the schema are copied, with their values |
| SchemaFacts.PlainSchema | server.py:103-119 | A plain schema converts to: the same type, the converted non-read-only properties, the required list filtered with repetitions kept, the same descriptive keys, and nothing else |
| CatalogFacts.KeptMethods | server.py:128-130 | Only the five HTTP methods are kept, in any letter case, and every one of them is kept |
| CatalogFacts.BuildAllSpec | server.py:127-186 | Building succeeds exactly when every endpoint's tool builds, and yields those tools in endpoint order |
| CatalogFacts.GenerateToolsSpec | server.py:121-188 | The catalog is one tool per kept (path, method) pair, in document order. A path item that is not a mapping makes the listing fail |
| CatalogFacts.ToolNaming | server.py:132-184 | The tool name is the `operationId`, else `<method>_<path>`. The description is the first 1024 characters of `description`, else `summary`, else `<METHOD> <path>` |
| CatalogFacts.AddParameterSpec | server.py:141-155 | A parameter lands under `path_<name>`, `query_<name>` or its bare name. Its converted schema gets `description` set (default ""). No other property changes, and the key is appended to `required` exactly when the parameter is required |
| CatalogFacts.StringSchemaConverts | server.py:144 | The default parameter schema `{"type": "string"}` converts to itself |
| CatalogFacts.DefaultParameterSchema | server.py:144-145 | A parameter without a schema is described as `{"type": "string", "description": …}` |
| CatalogFacts.AddParametersSpec | server.py:141-155 | Parameters never remove properties, append to `required`, and every required key is a declared property |
| CatalogFacts.SelectFirstPresent | server.py:161-167 | The body schema is taken from the first present content type, in the order JSON, form, multipart, text |
| CatalogFacts.SelectNonePresent | server.py:161-169 | Without any of the four content types, there is no body schema |
| CatalogFacts.AddBodyPropertiesGet | server.py:172-174 | Each body property is found under `body_<name>`, and keys outside the `body_` namespace are unchanged |
| CatalogFacts.AddRequestBodySpec | server.py:157-178 | The request body only adds `body_` keys: to the properties, and to the end of `required` |
| DispatchFacts.CredentialGate | server.py:199-204 | A missing user name or password ends the call with the credentials message, before lookup or any request. With both present this result never occurs |
| DispatchFacts.ScanMethodsSpec | server.py:213-220 | Within one path item, the scan raises exactly when it reaches a kept method whose operation is not a mapping, at or before the first one with the name. Otherwise the match is the first kept method whose `operationId` is the name |
| DispatchFacts.ScanPathsSpec | server.py:212-222 | Across path items, the scan yields the first match under a non-empty path, and otherwise at most a match under the empty path |
| DispatchFacts.FindOperationSpec | server.py:206-228 | Lookup yields the first operation, in catalog order and under a non-empty path, whose `operationId` is the name, and nothing when there is none |
| DispatchFacts.CallToolLookup | server.py:206-228 | With credentials, an unknown name gives "not found" without a request. A known name sends the request built for its operation |
| DispatchFacts.FallbackNameNotFound | server.py:212-228 | A tool named by the `<method>_<path>` fallback is reported as not found, unless some operation declares that name as its `operationId` |
| DispatchFacts.SplitArgumentsSpec | server.py:230-240 | A `path_`/`query_`/`body_` argument is found in its map with the prefix stripped (re-prefixing recovers the key). Any other argument is in no map |
| DispatchFacts.SubstituteUnused | server.py:242-244 | Path values whose placeholders do not occur leave the path unchanged |
| DispatchFacts.SubstituteOne | server.py:242-244 | A single `{name}` placeholder is replaced by `str(value)` |
| DispatchFacts.SubstituteExample | server.py:242-246 | `/transactions/{id}/` with `path_id = 42` becomes `/transactions/42/` |
| DispatchFacts.SubstituteLeavesUnknown | server.py:242-244 | A brace-free placeholder that no path argument names stays in the URL, whatever the values, when the supplied names have no braces |
| DispatchFacts.SubstituteFills | server.py:242-244 | For a template whose only braces delimit placeholders, with brace-free names and values: each placeholder with a value becomes `str(value)`, each without one stays, and the text between them is kept |
| DispatchFacts.BuildRequestFills | server.py:230-246 | For such a template and brace-free `path_` arguments, the URL is the base URL followed by the template filled piece by piece from the `path_` arguments |
| Text.ReplaceAfter | server.py:244 | `replace` leaves unchanged a prefix in which no occurrence of the pattern starts |
| Text.ReplaceKeeps | server.py:244 | An occurrence of a text that no occurrence of the pattern overlaps survives `replace` |
| DispatchFacts.BodyNonEmpty | server.py:239-240 | The body map is non-empty exactly when some argument has the `body_` prefix |
| DispatchFacts.BuildRequestSpec | server.py:242-276 | The request carries the Basic credential and `Accept: application/json`, and no other header except `Content-Type: application/json` (two headers, or three with a body). It has a JSON body, and then `Content-Type: application/json`, exactly for POST/PUT/PATCH with a `body_` argument. Query and body hold the routed arguments, and the URL is the base URL plus the substituted path |
| DispatchFacts.ClassifySpec | server.py:280-332 | A transport failure is reported with its exception's name and message. A response is an HTTP error, with its status and detail, exactly when its status is not 2xx. 204 gives the fixed payload whatever the body. Another 2xx gives the parsed JSON when there is one, and `{"response": text}` when the reply is neither JSON nor HTML |
| DispatchFacts.HtmlPreview | server.py:288-295 | An HTML success reply is summarised with status "success", its content type, and exactly the first 500 characters of its text |
| DispatchFacts.DetailSpec | server.py:304-321 | An error's detail is its parsed JSON body when there is one. For HTML it is the page title, and no title for an empty page. Otherwise it is exactly the first 500 characters of the text |
| Dispatch.TitleOf | server.py:316-319 | The title is found exactly when `<title>…</title>` (case-insensitive, no newline inside) occurs. It is the group of the leftmost match with the shortest group |
| DispatchFacts.TitleExample | server.py:317-319 | `<TITLE>x</title>` has the title `x` |

## Left out

- The stdio main loop, the MCP decorators, `get_tools_list` and `call_tool_internal` (server.py:37-62, 190-193, 334 onwards): they are transport glue. `mcp_sse_server.py` is not part of this model.
- Loading the OpenAPI YAML file (server.py:32-35): the document is an input value.
- Environment reads (server.py:25-26) and the base URL constant (server.py:21): they are fields of `Config`.
- The HTTP client (server.py:253-278): it is the parameter `send`, which returns a response or the name and message of the raised exception. The 30-second timeout is not modelled.
- The "Unsupported HTTP method" branch (server.py:277-278) is not modelled: lookup only returns one of the five upper-cased methods, so this branch is unreachable.
- `raise_for_status` follows httpx: every status outside 200-299 raises.
- `json.dumps` (server.py:301, 310): it is the pair of function parameters of `Dispatch.Render`, with and without `ensure_ascii`.
- `Dispatch.Render`: requires a result that is not `Raised`. An exception escaping `call_tool` has no text; it reaches the MCP layer.
- Floating-point numbers: JSON numbers are integers.
- `repr` of strings inside lists and dicts (`PyOps.Repr`): the model always quotes with single quotes and escapes nothing. Python uses double quotes when the string holds a single quote and no double quote, and it escapes backslashes, the quote character, and control and non-printable characters. `str()` of a string, number, boolean or `None` is exact.
- CatalogFacts.AddParameterSpec, Catalog.ParameterKey: a parameter name that is not a string, in a location other than path or query, stays a non-string dict key and `required` entry in Python (server.py:152, 155). The model writes it as its `str()`, because object keys are strings here.
- Letter case: only ASCII letters change case. In the title search, the case folding of `re.IGNORECASE` also maps U+0130 and U+0131 to `i`, as Python does.
- `list(set(...))` (server.py:96): repetitions are judged by Python's `==`, so `True` and `1` (and `False` and `0`) count as one value, and a set keeps the first of them added. Python leaves the order of the resulting list unspecified; the model keeps the order of first occurrences, and the contracts do not promise any order.
- `dict.update` with an argument that is not a mapping: it is modelled as a `TypeError`. Python would also accept an iterable of pairs.
- Aliasing: `oneOf` returns the sub-schema itself (server.py:101), and the catalog then sets `description` on it (server.py:145), which in Python modifies that dict in the document. So when several parameters reach the same `oneOf` component through `$ref`, in one catalog or in different tools, their input-schema properties are one and the same dict in Python, and every one of them shows the description written last; the change also persists into later listings. Values here are immutable, so in the model each parameter keeps its own description and the document is never changed. Modelling shared mutable dicts is out of scope.
- SchemaFacts.ConvertFuel: the recursion bound stands in for Python's recursion limit. A cyclic `$ref` ends in `RecursionLimit` instead of `RecursionError`, and the depth at which this happens is not Python's.
- DispatchFacts.ScanPathsSpec, DispatchFacts.FindOperationSpec, DispatchFacts.CallToolLookup, DispatchFacts.FallbackNameNotFound: stated for documents whose path items and kept operations are all mappings. server.py raises `AttributeError` (server.py:213, 216) only when the scan reaches a path item or kept operation that is not one, so a bad entry after the match does not raise. The model does the same, and `DispatchFacts.ScanMethodsSpec` states it within one path item, but these lemmas do not state it across path items.
- DispatchFacts.SubstituteLeavesUnknown, DispatchFacts.SubstituteFills, DispatchFacts.BuildRequestFills: stated for brace-free parameter names, and the last two also for brace-free values and templates whose only braces delimit placeholders. Outside that, `str.replace` applied in sequence can create placeholders from a value (a dict's `str()` starts with `{`) or break one up, and the URL depends on the order of the path arguments; no law is stated for that case. `DispatchFacts.SubstituteOne` covers one placeholder with any value.
- CatalogFacts.AddRequestBodySpec: it states where body keys go, not the converted body schema they come from. `CatalogFacts.AddBodyPropertiesGet` gives the values.

Behaviour of server.py that the model keeps:

- The credentials are checked before the operation lookup (server.py:199-204 precede server.py:206-228), so a missing credential is reported even for an unknown name.
- The base URL is a module constant (server.py:21); the model takes it from `Config`.
- Lookup stops only at a match under a non-empty path (server.py:221). A match under the path `""` does not stop the scan, and if no later path matches, the result is "not found".
- An operation without an `operationId` is listed under the fallback name `<method>_<path>` (server.py:132), but lookup compares only `operationId` (server.py:216), so such a tool is reported as not found.

=== FILE: auth.dfy ===
/** The downstream credential (`get_auth_header`, server.py:23-30): the
    Basic-auth token of section 2 of RFC 7617, that is the Base64 encoding
    (section 4 of RFC 4648) of the UTF-8 bytes of `user ":" password`. */
module BasicAuth {
  import opened Wrappers

  type byte = b: int | 0 <= b < 256

  /** The UTF-8 encoding of one Unicode scalar value. */
  function Utf8Char(c: char): (r: seq<byte>)
    ensures 1 <= |r| <= 4
    ensures |r| == 1 <==> c as int < 0x80
    ensures |r| == 1 ==> r[0] == c as int
  {
    var n := c as int;
    if n < 0x80 then [n]
    else if n < 0x800 then [0xC0 + n / 64, 0x80 + n % 64]
    else if n < 0x10000 then [0xE0 + n / 4096, 0x80 + (n / 64) % 64, 0x80 + n % 64]
    else [0xF0 + n / 262144, 0x80 + (n / 4096) % 64, 0x80 + (n / 64) % 64, 0x80 + n % 64]
  }

  /** `s.encode()`: the UTF-8 bytes of a string. */
  function Utf8(s: string): (r: seq<byte>)
    ensures |s| <= |r| <= 4 * |s|
  {
    if s == [] then [] else Utf8Char(s[0]) + Utf8(s[1..])
  }

  /** The Base64 digit for a 6-bit value. */
  function Digit(v: nat): char
    requires v < 64
  {
    if v < 26 then ('A' as int + v) as char
    else if v < 52 then ('a' as int + (v - 26)) as char
    else if v < 62 then ('0' as int + (v - 52)) as char
    else if v == 62 then '+'
    else '/'
  }

  /** The 6-bit value of a Base64 digit, `None` for any other character. */
  function DigitValue(c: char): Option<nat> {
    if 'A' <= c <= 'Z' then Some(c as int - 'A' as int)
    else if 'a' <= c <= 'z' then Some(c as int - 'a' as int + 26)
    else if '0' <= c <= '9' then Some(c as int - '0' as int + 52)
    else if c == '+' then Some(62)
    else if c == '/' then Some(63)
    else None
  }

  lemma DigitValueOfDigit(v: nat)
    requires v < 64
    ensures DigitValue(Digit(v)) == Some(v)
  {
  }

  /** The final group for one leftover byte. */
  function Single(b0: byte): string {
    [Digit(b0 / 4), Digit((b0 % 4) * 16), '=', '=']
  }

  /** The final group for two leftover bytes. */
  function Pair(b0: byte, b1: byte): string {
    [Digit(b0 / 4), Digit((b0 % 4) * 16 + b1 / 16), Digit((b1 % 16) * 4), '=']
  }

  /** The group for three bytes. */
  function Triple(b0: byte, b1: byte, b2: byte): string {
    [Digit(b0 / 4), Digit((b0 % 4) * 16 + b1 / 16), Digit((b1 % 16) * 4 + b2 / 64), Digit(b2 % 64)]
  }

  /** `base64.b64encode(bs).decode()`, padded with `=`. */
  function Base64(bs: seq<byte>): (r: string)
    ensures |r| % 4 == 0
    ensures |bs| > 0 <==> |r| > 0
    decreases |bs|
  {
    if |bs| == 0 then ""
    else if |bs| == 1 then Single(bs[0])
    else if |bs| == 2 then Pair(bs[0], bs[1])
    else Triple(bs[0], bs[1], bs[2]) + Base64(bs[3..])
  }

  /** Every three bytes, and a final one or two, become four characters. */
  lemma {:induction false} Base64Length(bs: seq<byte>)
    ensures |Base64(bs)| == 4 * ((|bs| + 2) / 3)
    decreases |bs|
  {
    if |bs| >= 3 {
      Base64Length(bs[3..]);
      assert (|bs| - 3 + 2) / 3 + 1 == (|bs| + 2) / 3;
    }
  }

  /** The bytes of one four-character group, `None` when it is malformed. */
  function DecodeGroup(g: string, last: bool): Option<seq<byte>>
    requires |g| == 4
  {
    var v0 := DigitValue(g[0]);
    var v1 := DigitValue(g[1]);
    var v2 := DigitValue(g[2]);
    var v3 := DigitValue(g[3]);
    if v0.None? || v1.None? then None
    else if last && g[2] == '=' && g[3] == '=' then
      Some([v0.value * 4 + v1.value / 16])
    else if v2.None? then None
    else if last && g[3] == '=' then
      Some([v0.value * 4 + v1.value / 16, (v1.value % 16) * 16 + v2.value / 4])
    else if v3.None? then None
    else
      Some([v0.value * 4 + v1.value / 16, (v1.value % 16) * 16 + v2.value / 4,
            (v2.value % 4) * 64 + v3.value])
  }

  /** Base64 decoding; padding is accepted in the final group only. */
  function Unbase64(s: string): Option<seq<byte>>
    decreases |s|
  {
    if s == "" then Some([])
    else if |s| < 4 then None
    else
      match DecodeGroup(s[..4], |s| == 4)
      case None => None
      case Some(g) =>
        match Unbase64(s[4..])
        case None => None
        case Some(rest) => Some(g + rest)
  }

  lemma ThreeBytes(b0: byte, b1: byte, b2: byte)
    ensures (b0 / 4) * 4 + ((b0 % 4) * 16 + b1 / 16) / 16 == b0
    ensures (((b0 % 4) * 16 + b1 / 16) % 16) * 16 + ((b1 % 16) * 4 + b2 / 64) / 4 == b1
    ensures (((b1 % 16) * 4 + b2 / 64) % 4) * 64 + b2 % 64 == b2
  {
    assert ((b0 % 4) * 16 + b1 / 16) / 16 == b0 % 4;
    assert ((b0 % 4) * 16 + b1 / 16) % 16 == b1 / 16;
    assert ((b1 % 16) * 4 + b2 / 64) / 4 == b1 % 16;
    assert ((b1 % 16) * 4 + b2 / 64) % 4 == b2 / 64;
  }

  lemma OneByteGroup(b0: byte)
    ensures DecodeGroup(Single(b0), true) == Some([b0])
  {
    var v0, v1 := b0 / 4, (b0 % 4) * 16;
    DigitValueOfDigit(v0);
    DigitValueOfDigit(v1);
    ThreeBytes(b0, 0, 0);
  }

  lemma TwoByteGroup(b0: byte, b1: byte)
    ensures DecodeGroup(Pair(b0, b1), true) == Some([b0, b1])
  {
    var v0, v1, v2 := b0 / 4, (b0 % 4) * 16 + b1 / 16, (b1 % 16) * 4;
    DigitValueOfDigit(v0);
    DigitValueOfDigit(v1);
    DigitValueOfDigit(v2);
    ThreeBytes(b0, b1, 0);
    var g := Pair(b0, b1);
    assert g[2] != '=';
    assert DecodeGroup(g, true) == Some([v0 * 4 + v1 / 16, (v1 % 16) * 16 + v2 / 4]);
  }

  lemma ThreeByteGroup(b0: byte, b1: byte, b2: byte, last: bool)
    ensures DecodeGroup(Triple(b0, b1, b2), last) == Some([b0, b1, b2])
  {
    var v0, v1, v2, v3 := b0 / 4, (b0 % 4) * 16 + b1 / 16, (b1 % 16) * 4 + b2 / 64, b2 % 64;
    DigitValueOfDigit(v0);
    DigitValueOfDigit(v1);
    DigitValueOfDigit(v2);
    DigitValueOfDigit(v3);
    ThreeBytes(b0, b1, b2);
    var g := Triple(b0, b1, b2);
    assert g[2] != '=' && g[3] != '=';
    assert DecodeGroup(g, last) == Some([v0 * 4 + v1 / 16, (v1 % 16) * 16 + v2 / 4, (v2 % 4) * 64 + v3]);
  }

  lemma Unbase64Group(g: string, rest: string, x: seq<byte>, y: seq<byte>)
    requires |g| == 4
    requires DecodeGroup(g, rest == "") == Some(x) && Unbase64(rest) == Some(y)
    ensures Unbase64(g + rest) == Some(x + y)
  {
    var s := g + rest;
    assert s[..4] == g && s[4..] == rest;
  }

  lemma RoundTripShort(bs: seq<byte>)
    requires 1 <= |bs| <= 2
    ensures Unbase64(Base64(bs)) == Some(bs)
  {
    if |bs| == 1 {
      OneByteGroup(bs[0]);
      Unbase64Group(Single(bs[0]), "", [bs[0]], []);
      assert Single(bs[0]) + "" == Base64(bs);
      assert [bs[0]] + [] == bs;
    } else {
      TwoByteGroup(bs[0], bs[1]);
      Unbase64Group(Pair(bs[0], bs[1]), "", [bs[0], bs[1]], []);
      assert Pair(bs[0], bs[1]) + "" == Base64(bs);
      assert [bs[0], bs[1]] + [] == bs;
    }
  }

  /** Decoding an encoding gives back the bytes. */
  lemma {:induction false} Base64RoundTrip(bs: seq<byte>)
    ensures Unbase64(Base64(bs)) == Some(bs)
    decreases |bs|
  {
    if 1 <= |bs| <= 2 {
      RoundTripShort(bs);
    } else if |bs| >= 3 {
      var rest := Base64(bs[3..]);
      ThreeByteGroup(bs[0], bs[1], bs[2], rest == "");
      Base64RoundTrip(bs[3..]);
      assert Base64(bs) == Triple(bs[0], bs[1], bs[2]) + rest;
      Unbase64Group(Triple(bs[0], bs[1], bs[2]), rest, [bs[0], bs[1], bs[2]], bs[3..]);
      assert bs == [bs[0], bs[1], bs[2]] + bs[3..];
    }
  }

  /** The token `get_auth_header` returns: empty unless both credentials are set. */
  function AuthHeader(username: string, password: string): string {
    if username != "" && password != "" then Base64(Utf8(username + ":" + password)) else ""
  }

  /** The token is empty exactly when a credential is missing; otherwise it
      decodes to the UTF-8 bytes of `user ":" password`. */
  lemma AuthHeaderSpec(username: string, password: string)
    ensures AuthHeader(username, password) == "" <==> username == "" || password == ""
    ensures username != "" && password != "" ==>
      Unbase64(AuthHeader(username, password)) == Some(Utf8(username + ":" + password))
  {
    if username != "" && password != "" {
      Base64RoundTrip(Utf8(username + ":" + password));
    }
  }
}

=== FILE: catalog.dfy ===
/** The tool catalog builder (`generate_tools_from_openapi`, server.py:121-188):
    one tool per (path, method) pair whose method is one of the five HTTP
    methods, in document order. */
module Catalog {
  import opened Wrappers
  import opened JsonTree
  import opened PyOps
  import opened SchemaConverter
  import Text

  datatype Tool = Tool(name: string, description: string, inputSchema: Json)

  /** The input schema under construction: its properties and its required keys. */
  datatype InputSchema = InputSchema(properties: Fields, required: seq<string>)

  const HttpMethods: seq<string> := ["GET", "POST", "PUT", "PATCH", "DELETE"]

  const MaxDescriptionLength: nat := 1024

  /** Request-body content types, in order of preference. */
  const BodyContentTypes: seq<string> :=
    ["application/json", "application/x-www-form-urlencoded", "multipart/form-data", "text/plain"]

  const NoInput: InputSchema := InputSchema([], [])

  /** The method names the catalog and the dispatcher keep, in any letter case. */
  predicate IsToolMethod(verb: string) {
    Text.Upper(verb) in HttpMethods
  }

  function StrList(names: seq<string>): (r: seq<Json>)
    ensures |r| == |names|
    ensures forall i :: 0 <= i < |names| ==> r[i] == Str(names[i])
  {
    if names == [] then [] else [Str(names[0])] + StrList(names[1..])
  }

  /** The JSON object `{"type": "object", "properties": ..., "required": [...]}`. */
  function InputSchemaJson(s: InputSchema): Json {
    Obj([("type", Str("object")), ("properties", Obj(s.properties)), ("required", Arr(StrList(s.required)))])
  }

  function GenerateTools(fuel: nat, spec: Json): Result<seq<Tool>, Fault> {
    var paths :- GetOr(spec, "paths", Obj([]));
    var components :- GetOr(spec, "components", Obj([]));
    var entries :- Items(paths);
    ToolsForPaths(fuel, entries, components)
  }

  function ToolsForPaths(fuel: nat, entries: Fields, components: Json): Result<seq<Tool>, Fault>
    decreases |entries|
  {
    if entries == [] then Ok([])
    else
      var operations :- Items(entries[0].1);
      var tools :- ToolsForMethods(fuel, entries[0].0, operations, components);
      var rest :- ToolsForPaths(fuel, entries[1..], components);
      Ok(tools + rest)
  }

  function ToolsForMethods(fuel: nat, path: string, operations: Fields, components: Json): Result<seq<Tool>, Fault>
    decreases |operations|
  {
    if operations == [] then Ok([])
    else if !IsToolMethod(operations[0].0) then ToolsForMethods(fuel, path, operations[1..], components)
    else
      var tool :- BuildTool(fuel, path, operations[0].0, operations[0].1, components);
      var rest :- ToolsForMethods(fuel, path, operations[1..], components);
      Ok([tool] + rest)
  }

  /** `description[:1024]`: a string or list is sliced, anything else raises. */
  function Slice(description: Json): Result<Json, Fault> {
    match description
    case Str(s) => Ok(Str(Text.Take(s, MaxDescriptionLength)))
    case Arr(items) => Ok(Arr(if |items| <= MaxDescriptionLength then items else items[..MaxDescriptionLength]))
    case _ => Err(TypeError("object is not subscriptable"))
  }

  /** One tool: name, truncated description and input schema. The `Tool`
      record rejects a name or description that is not a string. */
  function BuildTool(fuel: nat, path: string, verb: string, operation: Json, components: Json): Result<Tool, Fault> {
    var id :- GetOr(operation, "operationId", Str(verb + "_" + path));
    var description :- DescriptionOf(operation, path, verb);
    var input :- ToolInput(fuel, operation, components);
    var text :- Slice(description);
    if !id.Str? then Err(ValidationError("name"))
    else if !text.Str? then Err(ValidationError("description"))
    else Ok(Tool(id.s, text.s, InputSchemaJson(input)))
  }

  /** `description`, else `summary`, else "<METHOD> <path>" (the fallback is
      evaluated first, as Python evaluates the arguments of `get`). */
  function DescriptionOf(operation: Json, path: string, verb: string): Result<Json, Fault> {
    var summary :- GetOr(operation, "summary", Str(Text.Upper(verb) + " " + path));
    GetOr(operation, "description", summary)
  }

  /** The input schema: the declared parameters, then the request body. */
  function ToolInput(fuel: nat, operation: Json, components: Json): Result<InputSchema, Fault> {
    var hasParams :- HasEntry(operation, "parameters");
    var withParams :- if hasParams then
        (var ps :- Subscript(operation, "parameters");
         var params :- Iterate(ps);
         AddParameters(fuel, params, components, NoInput))
      else Ok(NoInput);
    var hasBody :- HasEntry(operation, "requestBody");
    if hasBody then
      var body :- Subscript(operation, "requestBody");
      AddRequestBody(fuel, body, components, withParams)
    else Ok(withParams)
  }

  function AddParameters(fuel: nat, params: seq<Json>, components: Json, acc: InputSchema): Result<InputSchema, Fault>
    decreases |params|
  {
    if params == [] then Ok(acc)
    else
      var acc' :- AddParameter(fuel, params[0], components, acc);
      AddParameters(fuel, params[1..], components, acc')
  }

  /** The input-schema key of a parameter: `path_<name>`, `query_<name>`,
      or the bare name for any other location. */
  function ParameterKey(name: Json, location: Json): Result<string, Fault> {
    if location == Str("path") then Ok("path_" + Format(name))
    else if location == Str("query") then Ok("query_" + Format(name))
    else if !Hashable(name) then Err(TypeError("unhashable type"))
    else Ok(Format(name))
  }

  /** One declared parameter: its converted schema (default `{"type": "string"}`)
      with its description set, under its namespaced key. */
  function AddParameter(fuel: nat, param: Json, components: Json, acc: InputSchema): Result<InputSchema, Fault> {
    var name :- Subscript(param, "name");
    var raw :- GetOr(param, "schema", Obj([("type", Str("string"))]));
    var converted :- Convert(fuel, raw, components);
    var description :- GetOr(param, "description", Str(""));
    var described :- SetItem(converted, "description", description);
    var location :- Subscript(param, "in");
    var key :- ParameterKey(name, location);
    var flag :- GetOr(param, "required", Bool(false));
    Ok(InputSchema(Put(acc.properties, key, described),
                   acc.required + (if Truthy(flag) then [key] else [])))
  }

  /** The schema of the first present content type, `Null` when none is present. */
  function SelectBodySchema(content: Json, types: seq<string>): Result<Json, Fault> {
    if types == [] then Ok(Null)
    else
      var present :- HasEntry(content, types[0]);
      if present then
        var entry :- Subscript(content, types[0]);
        GetOr(entry, "schema", Obj([]))
      else SelectBodySchema(content, types[1..])
  }

  /** Insert every body property under `body_<name>`. */
  function AddBodyProperties(props: Fields, body: Fields): Fields
    decreases |body|
  {
    if body == [] then props
    else AddBodyProperties(Put(props, "body_" + body[0].0, body[0].1), body[1..])
  }

  function BodyKeys(names: seq<Json>): (r: seq<string>)
    ensures |r| == |names|
    ensures forall i :: 0 <= i < |names| ==> r[i] == "body_" + Format(names[i])
  {
    if names == [] then [] else ["body_" + Format(names[0])] + BodyKeys(names[1..])
  }

  /** The request body: the top-level properties of the selected schema as
      `body_<name>` keys, and its required fields as required `body_<name>` keys. */
  function AddRequestBody(fuel: nat, body: Json, components: Json, acc: InputSchema): Result<InputSchema, Fault> {
    var content :- GetOr(body, "content", Obj([]));
    var selected :- SelectBodySchema(content, BodyContentTypes);
    if !Truthy(selected) then Ok(acc)
    else
      var converted :- Convert(fuel, selected, components);
      var hasProps :- HasEntry(converted, "properties");
      if !hasProps then Ok(acc)
      else
        var p :- Subscript(converted, "properties");
        var fields :- Items(p);
        var props := AddBodyProperties(acc.properties, fields);
        var hasRequired :- HasEntry(converted, "required");
        if !hasRequired then Ok(InputSchema(props, acc.required))
        else
          var r :- Subscript(converted, "required");
          var names :- Iterate(r);
          Ok(InputSchema(props, acc.required + BodyKeys(names)))
  }
}

=== FILE: catalog_props.dfy ===
/** What `generate_tools_from_openapi` (server.py:121-188) promises: one tool
    per kept (path, method) pair in document order, its name and description
    fallbacks, the namespaced parameter entries, and the request-body
    entries. */
module CatalogFacts {
  import opened Wrappers
  import opened JsonTree
  import opened PyOps
  import opened SchemaConverter
  import opened Catalog
  import SchemaFacts
  import Text

  // --------------------------------------------------------- the traversal

  /** A (path, method, operation) triple the catalog turns into a tool. */
  datatype Endpoint = Endpoint(path: string, verb: string, operation: Json)

  /** Every (path, method) pair with one of the five methods, in document order. */
  function KeptOperations(spec: Json): Result<seq<Endpoint>, Fault> {
    var paths :- GetOr(spec, "paths", Obj([]));
    var entries :- Items(paths);
    KeptFromPaths(entries)
  }

  function KeptFromPaths(entries: Fields): Result<seq<Endpoint>, Fault>
    decreases |entries|
  {
    if entries == [] then Ok([])
    else
      var operations :- Items(entries[0].1);
      var rest :- KeptFromPaths(entries[1..]);
      Ok(KeptMethods(entries[0].0, operations) + rest)
  }

  /** The operations of one path item whose method is kept, in order. */
  function KeptMethods(path: string, operations: Fields): (r: seq<Endpoint>)
    ensures forall e :: e in r ==> e.path == path && IsToolMethod(e.verb)
    ensures forall i :: 0 <= i < |operations| && IsToolMethod(operations[i].0) ==>
      Endpoint(path, operations[i].0, operations[i].1) in r
    decreases |operations|
  {
    if operations == [] then []
    else
      var rest := KeptMethods(path, operations[1..]);
      assert forall i :: 1 <= i < |operations| ==> operations[i] == operations[1..][i - 1];
      (if IsToolMethod(operations[0].0) then [Endpoint(path, operations[0].0, operations[0].1)] else []) + rest
  }

  /** Build each endpoint's tool in order, stopping at the first failure. */
  function BuildAll(fuel: nat, eps: seq<Endpoint>, components: Json): Result<seq<Tool>, Fault>
    decreases |eps|
  {
    if eps == [] then Ok([])
    else
      var tool :- BuildTool(fuel, eps[0].path, eps[0].verb, eps[0].operation, components);
      var rest :- BuildAll(fuel, eps[1..], components);
      Ok([tool] + rest)
  }

  /** Building succeeds exactly when every endpoint's tool builds, and then
      yields those tools in endpoint order. */
  lemma {:induction false} BuildAllSpec(fuel: nat, eps: seq<Endpoint>, components: Json)
    ensures BuildAll(fuel, eps, components).Ok? <==>
      forall i :: 0 <= i < |eps| ==> BuildTool(fuel, eps[i].path, eps[i].verb, eps[i].operation, components).Ok?
    ensures BuildAll(fuel, eps, components).Ok? ==> |BuildAll(fuel, eps, components).value| == |eps|
    ensures BuildAll(fuel, eps, components).Ok? ==> forall i :: 0 <= i < |eps| ==>
      BuildTool(fuel, eps[i].path, eps[i].verb, eps[i].operation, components) == Ok(BuildAll(fuel, eps, components).value[i])
    decreases |eps|
  {
    if eps != [] {
      BuildAllSpec(fuel, eps[1..], components);
      assert forall i :: 1 <= i < |eps| ==> eps[i] == eps[1..][i - 1];
    }
  }

  lemma {:induction false} BuildAllConcat(fuel: nat, a: seq<Endpoint>, b: seq<Endpoint>, components: Json)
    ensures BuildAll(fuel, a + b, components) ==
      match BuildAll(fuel, a, components)
      case Err(e) => Err(e)
      case Ok(x) =>
        match BuildAll(fuel, b, components)
        case Err(e) => Err(e)
        case Ok(y) => Ok(x + y)
    decreases |a|
  {
    if a == [] {
      assert a + b == b;
      if BuildAll(fuel, b, components).Ok? {
        assert [] + BuildAll(fuel, b, components).value == BuildAll(fuel, b, components).value;
      }
    } else {
      assert (a + b)[0] == a[0];
      assert (a + b)[1..] == a[1..] + b;
      BuildAllConcat(fuel, a[1..], b, components);
      var first := BuildTool(fuel, a[0].path, a[0].verb, a[0].operation, components);
      if first.Ok? && BuildAll(fuel, a[1..], components).Ok? && BuildAll(fuel, b, components).Ok? {
        var x := BuildAll(fuel, a[1..], components).value;
        var y := BuildAll(fuel, b, components).value;
        assert [first.value] + (x + y) == ([first.value] + x) + y;
      }
    }
  }

  lemma BuildAllSingle(fuel: nat, e: Endpoint, components: Json)
    ensures BuildAll(fuel, [e], components) ==
      match BuildTool(fuel, e.path, e.verb, e.operation, components)
      case Err(f) => Err(f)
      case Ok(t) => Ok([t])
  {
    assert [e][1..] == [];
    var first := BuildTool(fuel, e.path, e.verb, e.operation, components);
    if first.Ok? {
      assert [first.value] + [] == [first.value];
    }
  }

  lemma {:induction false} ToolsForMethodsSpec(fuel: nat, path: string, operations: Fields, components: Json)
    ensures ToolsForMethods(fuel, path, operations, components) == BuildAll(fuel, KeptMethods(path, operations), components)
    decreases |operations|
  {
    if operations != [] {
      var rest := KeptMethods(path, operations[1..]);
      ToolsForMethodsSpec(fuel, path, operations[1..], components);
      if IsToolMethod(operations[0].0) {
        var e := Endpoint(path, operations[0].0, operations[0].1);
        assert KeptMethods(path, operations) == [e] + rest;
        BuildAllConcat(fuel, [e], rest, components);
        BuildAllSingle(fuel, e, components);
      } else {
        assert KeptMethods(path, operations) == [] + rest;
        assert [] + rest == rest;
      }
    }
  }

  lemma {:induction false} ToolsForPathsSpec(fuel: nat, entries: Fields, components: Json)
    ensures KeptFromPaths(entries).Ok? ==>
      ToolsForPaths(fuel, entries, components) == BuildAll(fuel, KeptFromPaths(entries).value, components)
    ensures KeptFromPaths(entries).Err? ==> ToolsForPaths(fuel, entries, components).Err?
    decreases |entries|
  {
    if entries != [] {
      ToolsForPathsSpec(fuel, entries[1..], components);
      var operations := Items(entries[0].1);
      if operations.Ok? {
        ToolsForMethodsSpec(fuel, entries[0].0, operations.value, components);
        if KeptFromPaths(entries[1..]).Ok? {
          BuildAllConcat(fuel, KeptMethods(entries[0].0, operations.value), KeptFromPaths(entries[1..]).value, components);
        }
      }
    }
  }

  /** The catalog is the tool of every kept (path, method) pair, in order;
      a path item that is not a mapping makes the whole listing fail. */
  lemma GenerateToolsSpec(fuel: nat, spec: Json)
    ensures KeptOperations(spec).Ok? ==> spec.Obj?
    ensures KeptOperations(spec).Ok? ==>
      GenerateTools(fuel, spec) == BuildAll(fuel, KeptOperations(spec).value, GetOr(spec, "components", Obj([])).value)
    ensures KeptOperations(spec).Err? ==> GenerateTools(fuel, spec).Err?
  {
    if spec.Obj? {
      var paths := GetOr(spec, "paths", Obj([])).value;
      var components := GetOr(spec, "components", Obj([])).value;
      if Items(paths).Ok? {
        ToolsForPathsSpec(fuel, Items(paths).value, components);
      }
    }
  }

  // --------------------------------------------------- name and description

  /** The text a tool description is cut from: `description`, else `summary`,
      else "<METHOD> <path>". */
  function DescriptionSource(fs: Fields, path: string, verb: string): Json {
    match Get(fs, "description")
    case Some(d) => d
    case None =>
      match Get(fs, "summary")
      case Some(s) => s
      case None => Str(Text.Upper(verb) + " " + path)
  }

  /** A built tool is named by its `operationId`, or `<method>_<path>` when
      there is none, and described by the first 1024 characters of its
      description source. */
  lemma ToolNaming(fuel: nat, path: string, verb: string, operation: Json, components: Json, t: Tool)
    requires BuildTool(fuel, path, verb, operation, components) == Ok(t)
    ensures operation.Obj?
    ensures Get(operation.fields, "operationId") == Some(Str(t.name))
      || (Get(operation.fields, "operationId").None? && t.name == verb + "_" + path)
    ensures DescriptionSource(operation.fields, path, verb).Str?
    ensures t.description == Text.Take(DescriptionSource(operation.fields, path, verb).s, MaxDescriptionLength)
    ensures |t.description| <= MaxDescriptionLength
    ensures t.description <= DescriptionSource(operation.fields, path, verb).s
  {
    var d := DescriptionOf(operation, path, verb).value;
    assert d == DescriptionSource(operation.fields, path, verb);
  }

  // ------------------------------------------------------------ parameters

  /** The key a parameter is stored under, from its name and location. */
  function KeyFor(name: Json, location: Json): string {
    if location == Str("path") then "path_" + Format(name)
    else if location == Str("query") then "query_" + Format(name)
    else Format(name)
  }

  /** The schema a parameter declares, `{"type": "string"}` when none. */
  function SchemaSource(param: Json): Json {
    if param.Obj? && Get(param.fields, "schema").Some? then Get(param.fields, "schema").value
    else Obj([("type", Str("string"))])
  }

  /** The description a parameter declares, "" when none. */
  function DescriptionText(param: Json): Json {
    if param.Obj? && Get(param.fields, "description").Some? then Get(param.fields, "description").value
    else Str("")
  }

  predicate IsRequired(param: Json) {
    param.Obj? && Get(param.fields, "required").Some? && Truthy(Get(param.fields, "required").value)
  }

  /** `out` is the object `converted` with `description` set to `d`. */
  ghost predicate Described(out: Json, converted: Json, d: Json) {
    out.Obj? && converted.Obj? && Get(out.fields, "description") == Some(d)
    && forall k :: k != "description" ==> Get(out.fields, k) == Get(converted.fields, k)
  }

  /** One parameter: under its namespaced key, the converted schema (of
      `{"type": "string"}` when none is given) with `description` set to the
      parameter's description or "", every other key untouched, and the key
      appended to `required` exactly when the parameter is required. */
  lemma AddParameterSpec(fuel: nat, param: Json, components: Json, acc: InputSchema, acc': InputSchema)
    requires AddParameter(fuel, param, components, acc) == Ok(acc')
    ensures param.Obj? && Get(param.fields, "name").Some? && Get(param.fields, "in").Some?
    ensures Convert(fuel, SchemaSource(param), components).Ok?
    ensures
      var key := KeyFor(Get(param.fields, "name").value, Get(param.fields, "in").value);
      && Get(acc'.properties, key).Some?
      && Described(Get(acc'.properties, key).value, Convert(fuel, SchemaSource(param), components).value, DescriptionText(param))
      && (forall k :: k != key ==> Get(acc'.properties, k) == Get(acc.properties, k))
      && acc'.required == acc.required + (if IsRequired(param) then [key] else [])
  {
    var name := Get(param.fields, "name").value;
    var location := Get(param.fields, "in").value;
    var key := KeyFor(name, location);
    assert ParameterKey(name, location) == Ok(key);
    assert GetOr(param, "schema", Obj([("type", Str("string"))])) == Ok(SchemaSource(param));
    assert GetOr(param, "description", Str("")) == Ok(DescriptionText(param));
    var converted := Convert(fuel, SchemaSource(param), components).value;
    var d := DescriptionText(param);
    var described := Obj(Put(converted.fields, "description", d));
    assert acc'.properties == Put(acc.properties, key, described);
    forall k ensures Get(described.fields, k) == if k == "description" then Some(d) else Get(converted.fields, k) {
      PutGet(converted.fields, "description", d, k);
    }
    assert Described(described, converted, d);
    forall k ensures Get(acc'.properties, k) == if k == key then Some(described) else Get(acc.properties, k) {
      PutGet(acc.properties, key, described, k);
    }
  }

  lemma HasKeySingle(a: string, v: Json, k: string)
    ensures HasKey([(a, v)], k) <==> a == k
  {
    assert Keys([(a, v)]) == [a];
  }

  /** Copying keys none of which is present copies nothing. */
  lemma {:induction false} CopyKeysAbsent(schema: Json, keys: seq<string>)
    requires schema.Obj? && forall i :: 0 <= i < |keys| ==> !HasKey(schema.fields, keys[i])
    ensures CopyKeys(schema, keys) == Ok([])
    decreases |keys|
  {
    if keys != [] {
      assert forall i :: 0 <= i < |keys[1..]| ==> keys[1..][i] == keys[i + 1];
      CopyKeysAbsent(schema, keys[1..]);
      assert HasEntry(schema, keys[0]) == Ok(false);
      var none: Fields := [];
      assert none + none == none;
    }
  }

  /** `{"type": "string"}` takes the plain branch and keeps its type only. */
  lemma StringSchemaPlain(fuel: nat, components: Json)
    requires fuel > 0
    ensures ConvertPlain(fuel, Obj([("type", Str("string"))]), components) == Ok(Obj([("type", Str("string"))]))
  {
    var schema := Obj([("type", Str("string"))]);
    forall k ensures HasKey(schema.fields, k) <==> k == "type" {
      HasKeySingle("type", Str("string"), k);
    }
    GetSingle("type", Str("string"), "type");
    assert TypeEntry(schema) == Ok([("type", Str("string"))]);
    assert PlainProperties(fuel, schema, components) == Ok(None);
    assert PlainRequired(schema, None) == Ok(None);
    CopyKeysAbsent(schema, DescriptiveKeys);
    assert [("type", Str("string"))] + [] + [] + [] == [("type", Str("string"))];
  }

  /** `{"type": "string"}` converts to itself. */
  lemma StringSchemaConverts(fuel: nat, components: Json)
    requires fuel > 0
    ensures Convert(fuel, Obj([("type", Str("string"))]), components) == Ok(Obj([("type", Str("string"))]))
  {
    var schema := Obj([("type", Str("string"))]);
    HasKeySingle("type", Str("string"), "$ref");
    HasKeySingle("type", Str("string"), "allOf");
    HasKeySingle("type", Str("string"), "oneOf");
    assert ResolveRef(schema, components) == Ok(None);
    StringSchemaPlain(fuel, components);
  }

  /** A parameter without a schema is described as `{"type": "string",
      "description": ...}`. */
  lemma DefaultParameterSchema(fuel: nat, param: Json, components: Json, acc: InputSchema, acc': InputSchema)
    requires fuel > 0 && AddParameter(fuel, param, components, acc) == Ok(acc')
    requires param.Obj? && Get(param.fields, "schema").None?
    ensures Get(param.fields, "name").Some? && Get(param.fields, "in").Some?
    ensures Get(acc'.properties, KeyFor(Get(param.fields, "name").value, Get(param.fields, "in").value))
      == Some(Obj([("type", Str("string")),
                   ("description", if Get(param.fields, "description").Some? then Get(param.fields, "description").value else Str(""))]))
  {
    StringSchemaConverts(fuel, components);
    var d := if Get(param.fields, "description").Some? then Get(param.fields, "description").value else Str("");
    assert Put([("type", Str("string"))], "description", d) == [("type", Str("string")), ("description", d)] by {
      assert !HasKey([], "description");
    }
    var key := KeyFor(Get(param.fields, "name").value, Get(param.fields, "in").value);
    assert ParameterKey(Get(param.fields, "name").value, Get(param.fields, "in").value) == Ok(key);
    PutGet(acc.properties, key, Obj([("type", Str("string")), ("description", d)]), key);
  }

  /** One parameter adds or overwrites a single property and appends at most
      that key to `required`. */
  lemma AddParameterShape(fuel: nat, param: Json, components: Json, acc: InputSchema, acc': InputSchema)
    requires AddParameter(fuel, param, components, acc) == Ok(acc')
    ensures forall k :: HasKey(acc.properties, k) ==> HasKey(acc'.properties, k)
    ensures acc.required <= acc'.required && |acc'.required| <= |acc.required| + 1
    ensures forall k :: k in acc'.required[|acc.required|..] ==> HasKey(acc'.properties, k)
  {
    var name := Subscript(param, "name").value;
    var location := Subscript(param, "in").value;
    var key := ParameterKey(name, location).value;
    var converted := Convert(fuel, GetOr(param, "schema", Obj([("type", Str("string"))])).value, components).value;
    var described := SetItem(converted, "description", GetOr(param, "description", Str("")).value).value;
    assert acc'.properties == Put(acc.properties, key, described);
    PutKeys(acc.properties, key, described);
    assert HasKey(acc'.properties, key);
  }

  /** Parameters only add: earlier keys stay, `required` grows at its end, and
      every required key is a property. */
  lemma {:induction false} AddParametersSpec(fuel: nat, params: seq<Json>, components: Json, acc: InputSchema, acc': InputSchema)
    requires AddParameters(fuel, params, components, acc) == Ok(acc')
    requires forall k :: k in acc.required ==> HasKey(acc.properties, k)
    ensures acc.required <= acc'.required
    ensures forall k :: HasKey(acc.properties, k) ==> HasKey(acc'.properties, k)
    ensures forall k :: k in acc'.required ==> HasKey(acc'.properties, k)
    decreases |params|
  {
    if params != [] {
      var acc1 := AddParameter(fuel, params[0], components, acc).value;
      AddParameterShape(fuel, params[0], components, acc, acc1);
      forall k | k in acc1.required ensures HasKey(acc1.properties, k) {
        var i :| 0 <= i < |acc1.required| && acc1.required[i] == k;
        if i >= |acc.required| {
          assert k in acc1.required[|acc.required|..];
        } else {
          assert k in acc.required;
        }
      }
      AddParametersSpec(fuel, params[1..], components, acc1, acc');
    }
  }

  // ---------------------------------------------------------- request body

  /** The body schema comes from the first preferred content type present. */
  lemma {:induction false} SelectFirstPresent(content: Json, types: seq<string>, j: nat)
    requires content.Obj? && j < |types| && HasKey(content.fields, types[j])
    requires forall i :: 0 <= i < j ==> !HasKey(content.fields, types[i])
    ensures Get(content.fields, types[j]).Some?
    ensures SelectBodySchema(content, types) == GetOr(Get(content.fields, types[j]).value, "schema", Obj([]))
    decreases j
  {
    GetSomeIffHasKey(content.fields, types[j]);
    if j > 0 {
      SelectFirstPresent(content, types[1..], j - 1);
    }
  }

  /** No preferred content type present: no body schema. */
  lemma {:induction false} SelectNonePresent(content: Json, types: seq<string>)
    requires content.Obj? && forall i :: 0 <= i < |types| ==> !HasKey(content.fields, types[i])
    ensures SelectBodySchema(content, types) == Ok(Null)
    decreases |types|
  {
    if types != [] {
      SelectNonePresent(content, types[1..]);
    }
  }

  /** Body properties land under `body_<name>`, a later one winning; keys
      outside that namespace are untouched. */
  lemma {:induction false} AddBodyPropertiesGet(props: Fields, body: Fields, k: string)
    ensures Get(AddBodyProperties(props, body), k) ==
      if "body_" <= k && Get(body, k[5..]).Some? then Get(body, k[5..]) else Get(props, k)
    decreases |body|
  {
    if body != [] {
      var key := "body_" + body[0].0;
      AddBodyPropertiesGet(Put(props, key, body[0].1), body[1..], k);
      PutGet(props, key, body[0].1, k);
      assert k == key <==> "body_" <= k && k[5..] == body[0].0;
    }
  }

  /** The request body only adds `body_` keys, to the properties and to the
      end of `required`. */
  lemma AddRequestBodySpec(fuel: nat, body: Json, components: Json, acc: InputSchema, acc': InputSchema)
    requires AddRequestBody(fuel, body, components, acc) == Ok(acc')
    ensures acc.required <= acc'.required
    ensures forall i :: |acc.required| <= i < |acc'.required| ==> "body_" <= acc'.required[i]
    ensures forall k :: !("body_" <= k) ==> Get(acc'.properties, k) == Get(acc.properties, k)
  {
    var content := GetOr(body, "content", Obj([])).value;
    var selected := SelectBodySchema(content, BodyContentTypes).value;
    if Truthy(selected) {
      var converted := Convert(fuel, selected, components).value;
      if HasEntry(converted, "properties") == Ok(true) {
        var fields := Items(Subscript(converted, "properties").value).value;
        forall k | !("body_" <= k) ensures Get(acc'.properties, k) == Get(acc.properties, k) {
          AddBodyPropertiesGet(acc.properties, fields, k);
        }
        if HasEntry(converted, "required") == Ok(true) {
          var names := Iterate(Subscript(converted, "required").value).value;
          assert acc'.required == acc.required + BodyKeys(names);
          forall i | |acc.required| <= i < |acc'.required| ensures "body_" <= acc'.required[i] {
            assert acc'.required[i] == BodyKeys(names)[i - |acc.required|];
          }
        }
      }
    }
  }
}

=== FILE: dispatch.dfy ===
/** The dispatcher (`call_tool`, server.py:196-332) as pure steps: the
    credential gate, the operation lookup, the argument split, URL and
    request construction, and the classification of the one HTTP exchange.
    The HTTP call itself is the parameter `send`. */
module Dispatch {
  import opened Wrappers
  import opened JsonTree
  import opened PyOps
  import Text
  import Catalog
  import BasicAuth

  /** The process configuration the dispatcher reads. */
  datatype Config = Config(baseUrl: string, username: string, password: string)

  /** An operation found by name: its path template, upper-cased method and body. */
  datatype Operation = Operation(path: string, verb: string, operation: Json)

  /** The flat arguments split by prefix, prefixes stripped. */
  datatype SplitArgs = SplitArgs(path: Fields, query: Fields, body: Fields)

  datatype Request = Request(
    verb: string,
    url: string,
    headers: seq<(string, string)>,
    query: Fields,
    body: Option<Json>)

  /** A received HTTP response. `json` is the parsed body, `None` when the
      body is not JSON; `contentType` is empty when the header is absent. */
  datatype Response = Response(status: int, text: string, json: Option<Json>, contentType: string)

  /** The outcome of the one HTTP exchange: a response, or the name and
      message of the exception the client raised. */
  datatype Exchange = Received(response: Response) | Failed(kind: string, message: string)

  datatype ErrorDetail =
    | JsonDetail(body: Json)
    | HtmlPage(status: int, title: Option<string>)
    | RawText(text: string)

  /** What `call_tool` produces. `Raised` is an exception that escapes it. */
  datatype ToolResult =
    | MissingCredentials
    | ToolNotFound(name: string)
    | Raised(fault: Fault)
    | Success(payload: Json)
    | HttpError(status: int, detail: ErrorDetail)
    | TransportError(kind: string, message: string)

  const BodyVerbs: seq<string> := ["POST", "PUT", "PATCH"]

  const NoContentPayload: Json :=
    Obj([("status", Str("success")), ("message", Str("Resource deleted or no content returned"))])

  const PreviewLength: nat := 500

  const CredentialsMessage: string :=
    "Error: API_USERNAME and API_PASSWORD environment variables must be set to make API calls"

  // ---------------------------------------------------------------- lookup

  /** The operation whose `operationId` equals `name`, scanning paths and
      methods in document order. As in server.py, a match under the empty
      path does not end the scan and, unless a later path matches, counts
      as not found. */
  function FindOperation(spec: Json, name: string): Result<Option<Operation>, Fault> {
    var paths :- GetOr(spec, "paths", Obj([]));
    var entries :- Items(paths);
    var found :- ScanPaths(entries, name, None);
    Ok(if found.Some? && found.value.path != "" then found else None)
  }

  function ScanPaths(entries: Fields, name: string, found: Option<Operation>): Result<Option<Operation>, Fault>
    decreases |entries|
  {
    if entries == [] then Ok(found)
    else
      var operations :- Items(entries[0].1);
      var hit :- ScanMethods(entries[0].0, operations, name);
      if hit.Some? && entries[0].0 != "" then Ok(hit)
      else ScanPaths(entries[1..], name, if hit.Some? then hit else found)
  }

  function ScanMethods(path: string, operations: Fields, name: string): Result<Option<Operation>, Fault>
    decreases |operations|
  {
    if operations == [] then Ok(None)
    else if !Catalog.IsToolMethod(operations[0].0) then ScanMethods(path, operations[1..], name)
    else
      var id :- GetOr(operations[0].1, "operationId", Null);
      if id == Str(name) then Ok(Some(Operation(path, Text.Upper(operations[0].0), operations[0].1)))
      else ScanMethods(path, operations[1..], name)
  }

  // -------------------------------------------------------- argument split

  const NoArgs: SplitArgs := SplitArgs([], [], [])

  /** Route every `path_`, `query_` and `body_` key to its map with the
      prefix stripped; other keys are dropped. */
  function SplitArguments(args: Fields): SplitArgs {
    SplitFrom(args, NoArgs)
  }

  function SplitFrom(args: Fields, acc: SplitArgs): SplitArgs
    decreases |args|
  {
    if args == [] then acc
    else
      var (key, value) := args[0];
      var acc' :=
        if "path_" <= key then acc.(path := Put(acc.path, key[5..], value))
        else if "query_" <= key then acc.(query := Put(acc.query, key[6..], value))
        else if "body_" <= key then acc.(body := Put(acc.body, key[5..], value))
        else acc;
      SplitFrom(args[1..], acc')
  }

  // ------------------------------------------------------ request building

  function Placeholder(name: string): string {
    "{" + name + "}"
  }

  /** Replace `{name}` by `str(value)` for every path parameter, in order. */
  function Substitute(template: string, params: Fields): string
    decreases |params|
  {
    if params == [] then template
    else Substitute(Text.ReplaceAll(template, Placeholder(params[0].0), Format(params[0].1)), params[1..])
  }

  /** The request for a found operation. A JSON body and its content type
      are sent only by POST, PUT and PATCH, and only for a non-empty body. */
  function BuildRequest(baseUrl: string, auth: string, op: Operation, args: Fields): Request {
    var parts := SplitArguments(args);
    var sendsBody := op.verb in BodyVerbs && parts.body != [];
    Request(
      op.verb,
      baseUrl + Substitute(op.path, parts.path),
      [("Authorization", "Basic " + auth), ("Accept", "application/json")]
        + (if sendsBody then [("Content-Type", "application/json")] else []),
      parts.query,
      if sendsBody then Some(Obj(parts.body)) else None)
  }

  /** Everything `call_tool` decides before the network: the request to send,
      or the result it returns without sending one. */
  function Plan(config: Config, spec: Json, name: string, args: Fields): Result<Request, ToolResult> {
    var auth := BasicAuth.AuthHeader(config.username, config.password);
    if auth == "" then Err(MissingCredentials)
    else
      match FindOperation(spec, name)
      case Err(f) => Err(Raised(f))
      case Ok(None) => Err(ToolNotFound(name))
      case Ok(Some(op)) => Ok(BuildRequest(config.baseUrl, auth, op, args))
  }

  // ------------------------------------------------ response classification

  /** The statuses for which `raise_for_status` raises: all but 2xx. */
  predicate IsErrorStatus(status: int) {
    !(200 <= status < 300)
  }

  predicate IsHtml(contentType: string) {
    Text.Contains(contentType, "text/html")
  }

  function Classify(x: Exchange): ToolResult {
    match x
    case Failed(kind, message) => TransportError(kind, message)
    case Received(r) =>
      if IsErrorStatus(r.status) then HttpError(r.status, Detail(r))
      else if r.status == 204 then Success(NoContentPayload)
      else if r.json.Some? then Success(r.json.value)
      else if IsHtml(r.contentType) then
        Success(Obj([("status", Str("success")),
                     ("content_type", Str(r.contentType)),
                     ("message", Str("Response received (HTML content)")),
                     ("text_preview", Str(Text.Take(r.text, PreviewLength)))]))
      else Success(Obj([("response", Str(r.text))]))
  }

  /** The detail of an error response: its JSON body, else the title of an
      HTML page, else the start of the raw body. */
  function Detail(r: Response): ErrorDetail {
    if r.json.Some? then JsonDetail(r.json.value)
    else if IsHtml(r.contentType) then HtmlPage(r.status, if r.text != "" then TitleOf(r.text) else None)
    else RawText(Text.Take(r.text, PreviewLength))
  }

  /** The whole of `call_tool`, the HTTP exchange being `send`. */
  function CallTool(config: Config, spec: Json, name: string, args: Fields, send: Request -> Exchange): ToolResult {
    match Plan(config, spec, name, args)
    case Err(early) => early
    case Ok(request) => Classify(send(request))
  }

  /** The text `call_tool` returns. `pretty` and `ascii` are the two
      `json.dumps` calls (with and without `ensure_ascii=False`). */
  function Render(r: ToolResult, pretty: Json -> string, ascii: Json -> string): string
    requires !r.Raised?
  {
    match r
    case MissingCredentials => CredentialsMessage
    case ToolNotFound(name) => "Error: Tool '" + name + "' not found in API specification"
    case Success(payload) => pretty(payload)
    case HttpError(status, detail) => "HTTP Error " + Text.IntToString(status) + ":\n" + DetailText(detail, ascii)
    case TransportError(kind, message) => "Error: " + kind + ": " + message
  }

  function DetailText(d: ErrorDetail, ascii: Json -> string): string {
    match d
    case JsonDetail(body) => ascii(body)
    case HtmlPage(status, title) =>
      "HTML Error Page (status " + Text.IntToString(status) + ")"
      + (if title.Some? then "\nTitle: " + title.value else "")
    case RawText(text) => text
  }

  // ------------------------------------------------------- the title search

  const OpenTag: string := "<title>"
  const CloseTag: string := "</title>"

  /** How `re.IGNORECASE` compares a text character with a lower-case ASCII
      pattern character: by simple lower-casing, under which the dotted
      capital I (U+0130) is also an `i`, plus the dotless i (U+0131), which
      Python's regex engine declares equivalent to `i`. No other non-ASCII
      character lower-cases to a letter of the two tags. */
  function FoldChar(c: char): char {
    if c == '\U{0130}' || c == '\U{0131}' then 'i' else Text.LowerChar(c)
  }

  /** The lower-case ASCII `tag` matches `s` at `i`, ignoring case. */
  predicate TagAt(s: string, tag: string, i: nat) {
    i + |tag| <= |s| && forall m :: 0 <= m < |tag| ==> FoldChar(s[i + m]) == tag[m]
  }

  predicate OpensAt(s: string, i: nat) {
    TagAt(s, OpenTag, i)
  }

  predicate ClosesAt(s: string, k: nat) {
    TagAt(s, CloseTag, k)
  }

  predicate NoNewline(s: string, from: nat, to: nat)
    requires from <= to <= |s|
  {
    forall m :: from <= m < to ==> s[m] != '\n'
  }

  /** `<title>(.*?)</title>` matches at `i` with the group ending at `k`
      (`.` does not match a newline; letter case is ignored). */
  predicate TitleMatch(s: string, i: nat, k: nat) {
    OpensAt(s, i) && i + |OpenTag| <= k && ClosesAt(s, k) && NoNewline(s, i + |OpenTag|, k)
  }

  /** The first closing tag at or after `from` that no newline precedes. */
  function CloseFrom(s: string, from: nat): (r: Option<nat>)
    ensures r.Some? ==> from <= r.value && ClosesAt(s, r.value) && NoNewline(s, from, r.value)
    ensures r.Some? ==> forall k :: from <= k < r.value ==> !ClosesAt(s, k)
    ensures r.None? ==> forall k :: from <= k && ClosesAt(s, k) ==> !NoNewline(s, from, k)
    decreases |s| - from
  {
    if from + |CloseTag| > |s| then None
    else if ClosesAt(s, from) then Some(from)
    else if s[from] == '\n' then None
    else CloseFrom(s, from + 1)
  }

  /** The leftmost match starting at or after `from`, with the shortest group. */
  function TitleFrom(s: string, from: nat): (r: Option<(nat, nat)>)
    ensures r.Some? ==> from <= r.value.0 && TitleMatch(s, r.value.0, r.value.1)
    ensures r.Some? ==> forall i, k :: from <= i < r.value.0 ==> !TitleMatch(s, i, k)
    ensures r.Some? ==> forall k: nat :: k < r.value.1 ==> !TitleMatch(s, r.value.0, k)
    ensures r.None? ==> forall i, k :: from <= i ==> !TitleMatch(s, i, k)
    decreases |s| - from
  {
    if from + |OpenTag| > |s| then None
    else if OpensAt(s, from) then
      match CloseFrom(s, from + |OpenTag|)
      case Some(k) => Some((from, k))
      case None => TitleFrom(s, from + 1)
    else TitleFrom(s, from + 1)
  }

  /** `re.search(r'<title>(.*?)</title>', text, re.IGNORECASE).group(1)`. */
  function TitleOf(text: string): (r: Option<string>)
    ensures r.None? <==> forall i: nat, k: nat :: !TitleMatch(text, i, k)
    ensures r.Some? ==> exists i: nat, k: nat ::
      TitleMatch(text, i, k) && r.value == text[i + |OpenTag|..k]
      && (forall i': nat, k': nat :: i' < i ==> !TitleMatch(text, i', k'))
      && (forall k': nat :: k' < k ==> !TitleMatch(text, i, k'))
  {
    match TitleFrom(text, 0)
    case None => None
    case Some((i, k)) =>
      assert TitleMatch(text, i, k);
      Some(text[i + |OpenTag|..k])
  }
}

=== FILE: dispatch_props.dfy ===
/** What `call_tool` (server.py:196-332) promises: missing credentials stop
    it before anything else, a name resolves to the first matching operation
    of the catalog's traversal, arguments are routed by prefix, path
    placeholders are substituted, a body travels only with POST, PUT and
    PATCH, and every exchange is classified. */
module DispatchFacts {
  import opened Wrappers
  import opened JsonTree
  import opened PyOps
  import Text
  import Catalog
  import BasicAuth
  import opened Dispatch
  import opened CatalogFacts

  // ------------------------------------------------------- credential gate

  predicate HasCredentials(config: Config) {
    config.username != "" && config.password != ""
  }

  /** Without both credentials the call ends with the credentials message,
      before the lookup and before any request; with both it never does. */
  lemma CredentialGate(config: Config, spec: Json, name: string, args: Fields, send: Request -> Exchange,
                       pretty: Json -> string, ascii: Json -> string)
    ensures !HasCredentials(config) ==> Plan(config, spec, name, args) == Err(MissingCredentials)
    ensures CallTool(config, spec, name, args, send) == MissingCredentials <==> !HasCredentials(config)
    ensures !HasCredentials(config) ==> Render(CallTool(config, spec, name, args, send), pretty, ascii) == CredentialsMessage
  {
    BasicAuth.AuthHeaderSpec(config.username, config.password);
  }

  // ---------------------------------------------------------------- lookup

  /** The endpoint's `operationId` is `name`. */
  predicate HasId(e: Endpoint, name: string) {
    GetOr(e.operation, "operationId", Null) == Ok(Str(name))
  }

  /** An endpoint dispatch resolves `name` to: right id, non-empty path. */
  predicate Named(e: Endpoint, name: string) {
    e.path != "" && HasId(e, name)
  }

  function FirstWithId(eps: seq<Endpoint>, name: string): (r: Option<Endpoint>)
    ensures r.Some? ==> r.value in eps && HasId(r.value, name)
    ensures r.None? ==> forall e :: e in eps ==> !HasId(e, name)
    decreases |eps|
  {
    if eps == [] then None
    else if HasId(eps[0], name) then Some(eps[0])
    else FirstWithId(eps[1..], name)
  }

  /** The first endpoint, in catalog order, that `name` designates. */
  function FirstNamed(eps: seq<Endpoint>, name: string): (r: Option<Endpoint>)
    ensures r.Some? ==> exists j :: (0 <= j < |eps| && eps[j] == r.value && Named(eps[j], name)
      && forall i :: 0 <= i < j ==> !Named(eps[i], name))
    ensures r.None? ==> forall i :: 0 <= i < |eps| ==> !Named(eps[i], name)
    decreases |eps|
  {
    if eps == [] then None
    else if Named(eps[0], name) then Some(eps[0])
    else
      var r := FirstNamed(eps[1..], name);
      assert forall i :: 1 <= i < |eps| ==> eps[i] == eps[1..][i - 1];
      if r.Some? then
        var j :| 0 <= j < |eps[1..]| && eps[1..][j] == r.value && Named(eps[1..][j], name)
          && forall i :: 0 <= i < j ==> !Named(eps[1..][i], name);
        assert eps[j + 1] == r.value;
        r
      else r
  }

  /** The operation record dispatch keeps for an endpoint. */
  function Found(e: Endpoint): Operation {
    Operation(e.path, Text.Upper(e.verb), e.operation)
  }

  function FoundOpt(e: Option<Endpoint>): Option<Operation> {
    if e.Some? then Some(Found(e.value)) else None
  }

  lemma {:induction false} FirstNamedConcat(a: seq<Endpoint>, b: seq<Endpoint>, name: string)
    ensures FirstNamed(a + b, name) == if FirstNamed(a, name).Some? then FirstNamed(a, name) else FirstNamed(b, name)
    decreases |a|
  {
    if a == [] {
      assert a + b == b;
    } else {
      assert (a + b)[0] == a[0];
      assert (a + b)[1..] == a[1..] + b;
      FirstNamedConcat(a[1..], b, name);
    }
  }

  /** Within one path, the named endpoint is the first with the id, and
      there is none under the empty path. */
  lemma {:induction false} FirstNamedInPath(path: string, operations: Fields, name: string)
    ensures FirstNamed(KeptMethods(path, operations), name) ==
      if path == "" then None else FirstWithId(KeptMethods(path, operations), name)
    decreases |operations|
  {
    if operations != [] {
      FirstNamedInPath(path, operations[1..], name);
      var rest := KeptMethods(path, operations[1..]);
      if Catalog.IsToolMethod(operations[0].0) {
        var e := Endpoint(path, operations[0].0, operations[0].1);
        assert KeptMethods(path, operations) == [e] + rest;
        assert ([e] + rest)[1..] == rest;
      } else {
        assert KeptMethods(path, operations) == [] + rest;
        assert [] + rest == rest;
      }
    }
  }

  /** No endpoint before index `i` has `name` as its `operationId`. */
  predicate NoIdBefore(eps: seq<Endpoint>, i: nat, name: string)
    requires i <= |eps|
  {
    forall j :: 0 <= j < i ==> !HasId(eps[j], name)
  }

  /** Every endpoint the scan for `name` reaches, up to and including the
      first one with that `operationId`, is a mapping. */
  predicate ReachedAreObjects(eps: seq<Endpoint>, name: string) {
    forall i :: 0 <= i < |eps| && NoIdBefore(eps, i, name) ==> eps[i].operation.Obj?
  }

  lemma ReachedCons(e: Endpoint, rest: seq<Endpoint>, name: string)
    ensures ReachedAreObjects([e] + rest, name) <==>
      e.operation.Obj? && (HasId(e, name) || ReachedAreObjects(rest, name))
  {
    var eps := [e] + rest;
    assert eps[0] == e;
    assert forall i :: 1 <= i < |eps| ==> eps[i] == rest[i - 1];
    if e.operation.Obj? && !HasId(e, name) {
      forall i | 1 <= i <= |eps|
        ensures NoIdBefore(eps, i, name) <==> NoIdBefore(rest, i - 1, name)
      {
        if NoIdBefore(rest, i - 1, name) {
          forall j | 0 <= j < i ensures !HasId(eps[j], name) {
            if j > 0 {
              assert eps[j] == rest[j - 1];
            }
          }
        }
        if NoIdBefore(eps, i, name) {
          forall j | 0 <= j < i - 1 ensures !HasId(rest[j], name) {
            assert rest[j] == eps[j + 1];
          }
        }
      }
      if ReachedAreObjects(rest, name) {
        forall i | 0 <= i < |eps| && NoIdBefore(eps, i, name)
          ensures eps[i].operation.Obj?
        {
          if i > 0 {
            assert NoIdBefore(rest, i - 1, name);
          }
        }
      }
      if ReachedAreObjects(eps, name) {
        forall i | 0 <= i < |rest| && NoIdBefore(rest, i, name)
          ensures rest[i].operation.Obj?
        {
          assert NoIdBefore(eps, i + 1, name);
        }
      }
    } else if e.operation.Obj? {
      forall i | 0 < i <= |eps|
        ensures !NoIdBefore(eps, i, name)
      {
        assert HasId(eps[0], name);
      }
    } else {
      assert NoIdBefore(eps, 0, name);
    }
  }

  /** Within one path item, the scan raises exactly when it reaches a
      kept method whose operation is not a mapping; otherwise it finds the
      first kept method whose `operationId` is `name`. */
  lemma {:induction false} ScanMethodsSpec(path: string, operations: Fields, name: string)
    ensures ScanMethods(path, operations, name).Ok? <==> ReachedAreObjects(KeptMethods(path, operations), name)
    ensures ScanMethods(path, operations, name).Ok? ==>
      ScanMethods(path, operations, name).value == FoundOpt(FirstWithId(KeptMethods(path, operations), name))
    decreases |operations|
  {
    if operations != [] {
      var rest := KeptMethods(path, operations[1..]);
      ScanMethodsSpec(path, operations[1..], name);
      if Catalog.IsToolMethod(operations[0].0) {
        var e := Endpoint(path, operations[0].0, operations[0].1);
        assert KeptMethods(path, operations) == [e] + rest;
        assert ([e] + rest)[1..] == rest;
        ReachedCons(e, rest, name);
        if !e.operation.Obj? {
          assert ScanMethods(path, operations, name).Err?;
        } else if HasId(e, name) {
          assert ScanMethods(path, operations, name) == Ok(Some(Found(e)));
        } else {
          assert ScanMethods(path, operations, name) == ScanMethods(path, operations[1..], name);
        }
      } else {
        assert KeptMethods(path, operations) == [] + rest;
        assert [] + rest == rest;
      }
    }
  }

  /** When every kept operation is a mapping, every scan reaches only mappings. */
  lemma AllObjectsReached(eps: seq<Endpoint>, name: string)
    requires forall e :: e in eps ==> e.operation.Obj?
    ensures ReachedAreObjects(eps, name)
  {
    forall i | 0 <= i < |eps| && NoIdBefore(eps, i, name)
      ensures eps[i].operation.Obj?
    {
      assert eps[i] in eps;
    }
  }

  /** Across path items: the first named endpoint, or else at most a match
      under the empty path, which the caller discards. */
  lemma {:induction false} ScanPathsSpec(entries: Fields, name: string, found: Option<Operation>, eps: seq<Endpoint>)
    requires KeptFromPaths(entries) == Ok(eps)
    requires forall e :: e in eps ==> e.operation.Obj?
    requires found.None? || found.value.path == ""
    ensures ScanPaths(entries, name, found).Ok?
    ensures FirstNamed(eps, name).Some? ==> ScanPaths(entries, name, found) == Ok(FoundOpt(FirstNamed(eps, name)))
    ensures FirstNamed(eps, name).None? ==>
      var r := ScanPaths(entries, name, found).value; r.None? || r.value.path == ""
    decreases |entries|
  {
    if entries != [] {
      var path := entries[0].0;
      var operations := Items(entries[0].1).value;
      var here := KeptMethods(path, operations);
      var later := KeptFromPaths(entries[1..]).value;
      assert eps == here + later;
      AllObjectsReached(here, name);
      ScanMethodsSpec(path, operations, name);
      FirstNamedConcat(here, later, name);
      FirstNamedInPath(path, operations, name);
      var hit := FoundOpt(FirstWithId(here, name));
      if !(hit.Some? && path != "") {
        ScanPathsSpec(entries[1..], name, if hit.Some? then hit else found, later);
      }
    }
  }

  /** Dispatch resolves a name to the first endpoint of the catalog's
      traversal, under a non-empty path, whose `operationId` is that name,
      and reports none when there is no such endpoint. */
  lemma FindOperationSpec(spec: Json, name: string, eps: seq<Endpoint>)
    requires KeptOperations(spec) == Ok(eps)
    requires forall e :: e in eps ==> e.operation.Obj?
    ensures FindOperation(spec, name) == Ok(FoundOpt(FirstNamed(eps, name)))
  {
    var entries := Items(GetOr(spec, "paths", Obj([])).value).value;
    ScanPathsSpec(entries, name, None, eps);
  }

  /** With credentials, an unknown name is reported as not found without a
      request, and a known one sends the request built for its operation
      and returns the classified exchange. */
  lemma CallToolLookup(config: Config, spec: Json, name: string, args: Fields, send: Request -> Exchange, eps: seq<Endpoint>)
    requires HasCredentials(config)
    requires KeptOperations(spec) == Ok(eps)
    requires forall e :: e in eps ==> e.operation.Obj?
    ensures FirstNamed(eps, name).None? ==> CallTool(config, spec, name, args, send) == ToolNotFound(name)
    ensures FirstNamed(eps, name).Some? ==>
      CallTool(config, spec, name, args, send) ==
        Classify(send(BuildRequest(config.baseUrl, BasicAuth.AuthHeader(config.username, config.password),
                                   Found(FirstNamed(eps, name).value), args)))
  {
    BasicAuth.AuthHeaderSpec(config.username, config.password);
    FindOperationSpec(spec, name, eps);
  }

  /** A tool whose name is the `<method>_<path>` fallback cannot be called
      unless some operation declares that name as its `operationId`. */
  lemma FallbackNameNotFound(config: Config, spec: Json, args: Fields, send: Request -> Exchange,
                             eps: seq<Endpoint>, j: nat)
    requires HasCredentials(config)
    requires KeptOperations(spec) == Ok(eps)
    requires forall e :: e in eps ==> e.operation.Obj?
    requires j < |eps| && Get(eps[j].operation.fields, "operationId").None?
    requires forall e :: e in eps ==> Get(e.operation.fields, "operationId") != Some(Str(eps[j].verb + "_" + eps[j].path))
    ensures CallTool(config, spec, eps[j].verb + "_" + eps[j].path, args, send) == ToolNotFound(eps[j].verb + "_" + eps[j].path)
  {
    var name := eps[j].verb + "_" + eps[j].path;
    CallToolLookup(config, spec, name, args, send, eps);
  }

  // -------------------------------------------------------- argument split

  lemma PrefixSplit(key: string, prefix: string, k: string)
    ensures key == prefix + k <==> prefix <= key && key[|prefix|..] == k
  {
    if prefix <= key && key[|prefix|..] == k {
      assert key == key[..|prefix|] + key[|prefix|..];
    }
  }

  lemma {:induction false} SplitFromGet(args: Fields, acc: SplitArgs, k: string)
    ensures Get(SplitFrom(args, acc).path, k) ==
      if Get(args, "path_" + k).Some? then Get(args, "path_" + k) else Get(acc.path, k)
    ensures Get(SplitFrom(args, acc).query, k) ==
      if Get(args, "query_" + k).Some? then Get(args, "query_" + k) else Get(acc.query, k)
    ensures Get(SplitFrom(args, acc).body, k) ==
      if Get(args, "body_" + k).Some? then Get(args, "body_" + k) else Get(acc.body, k)
    decreases |args|
  {
    if args != [] {
      var (key, value) := args[0];
      var acc' :=
        if "path_" <= key then acc.(path := Put(acc.path, key[5..], value))
        else if "query_" <= key then acc.(query := Put(acc.query, key[6..], value))
        else if "body_" <= key then acc.(body := Put(acc.body, key[5..], value))
        else acc;
      SplitFromGet(args[1..], acc', k);
      if |key| >= 5 {
        PutGet(acc.path, key[5..], value, k);
        PutGet(acc.body, key[5..], value, k);
      }
      if |key| >= 6 {
        PutGet(acc.query, key[6..], value, k);
      }
      PrefixSplit(key, "path_", k);
      PrefixSplit(key, "query_", k);
      PrefixSplit(key, "body_", k);
      if "path_" <= key {
        assert key[0] == 'p';
        assert !("query_" <= key) && !("body_" <= key);
      } else if "query_" <= key {
        assert key[0] == 'q';
        assert !("body_" <= key);
      }
    }
  }

  /** A `path_`/`query_`/`body_` argument is found, prefix stripped, in its
      map (the last one wins); nothing else is in any of the maps. */
  lemma SplitArgumentsSpec(args: Fields, k: string)
    ensures Get(SplitArguments(args).path, k) == Get(args, "path_" + k)
    ensures Get(SplitArguments(args).query, k) == Get(args, "query_" + k)
    ensures Get(SplitArguments(args).body, k) == Get(args, "body_" + k)
  {
    SplitFromGet(args, NoArgs, k);
  }

  // -------------------------------------------------------- URL and request

  /** Placeholders none of the parameters names leave the template as it is. */
  lemma {:induction false} SubstituteUnused(template: string, params: Fields)
    requires forall i :: 0 <= i < |params| ==> !Text.Contains(template, Placeholder(params[i].0))
    ensures Substitute(template, params) == template
    decreases |params|
  {
    if params != [] {
      Text.ReplaceAllIdentity(template, Placeholder(params[0].0), Format(params[0].1));
      assert forall i :: 0 <= i < |params[1..]| ==> params[1..][i] == params[i + 1];
      SubstituteUnused(template, params[1..]);
    }
  }

  /** A single placeholder, with no `{` before it and no other copy after it,
      is replaced by `str(value)`. */
  lemma SubstituteOne(a: string, name: string, value: Json, b: string)
    requires '{' !in a && !Text.Contains(b, Placeholder(name))
    ensures Substitute(a + Placeholder(name) + b, [(name, value)]) == a + Format(value) + b
  {
    var p := Placeholder(name);
    var s := a + p + b;
    assert Text.OccursAt(s, p, |a|) by {
      assert s[|a|..|a| + |p|] == p;
    }
    assert p[0] == '{';
    forall j | 0 <= j < |a| ensures !Text.OccursAt(s, p, j) {
      assert s[j] == a[j];
    }
    assert Text.IndexOf(s, p) == Some(|a|);
    Text.ReplaceAllStep(s, p, Format(value), |a|);
    assert s[..|a|] == a;
    assert s[|a| + |p|..] == b;
    Text.ReplaceAllIdentity(b, p, Format(value));
    assert [(name, value)][1..] == [];
  }

  /** `/transactions/{id}/` with `path_id = 42` asks for `/transactions/42/`. */
  lemma SubstituteExample()
    ensures Substitute("/transactions/" + Placeholder("id") + "/", [("id", Num(42))]) == "/transactions/42/"
  {
    assert !Text.Contains("/", Placeholder("id"));
    SubstituteOne("/transactions/", "id", Num(42), "/");
    assert Format(Num(42)) == "42" by {
      assert Text.NatToString(42) == Text.NatToString(4) + [Text.DigitChar(2)];
    }
  }

  // ------------------------------------------------------- placeholders

  /** `s` holds no brace. */
  predicate BraceFree(s: string) {
    '{' !in s && '}' !in s
  }

  /** An occurrence of `{m}` at `j`: an opening brace, `m` without braces,
      a closing brace. */
  lemma PlaceholderAt(s: string, m: string, j: nat)
    requires BraceFree(m) && Text.OccursAt(s, Placeholder(m), j)
    ensures |Placeholder(m)| == |m| + 2
    ensures s[j] == '{' && s[j + |m| + 1] == '}'
    ensures s[j + 1..j + 1 + |m|] == m
    ensures forall k :: j < k < j + |m| + 1 ==> s[k] != '{' && s[k] != '}'
  {
    var p := Placeholder(m);
    assert |p| == |m| + 2;
    assert s[j..j + |p|] == p;
    assert s[j] == p[0];
    assert s[j + |m| + 1] == p[|m| + 1];
    forall k | 0 <= k < |m|
      ensures s[j + 1 + k] == m[k]
    {
      assert s[j + 1 + k] == p[1 + k];
    }
    forall k | j < k < j + |m| + 1
      ensures s[k] != '{' && s[k] != '}'
    {
      assert s[k] == p[k - j];
      assert p[k - j] == m[k - j - 1];
    }
  }

  /** No placeholder starts where the text has no opening brace. */
  lemma NoPlaceholderAt(s: string, m: string, j: nat)
    requires j < |s| && s[j] != '{'
    ensures !Text.OccursAt(s, Placeholder(m), j)
  {
    var p := Placeholder(m);
    if j + |p| <= |s| {
      assert s[j..j + |p|][0] == s[j];
      assert p[0] == '{';
    }
  }

  /** The placeholders of two different brace-free names never overlap. */
  lemma PlaceholdersApart(s: string, m: string, n: string, j: nat, i: nat)
    requires BraceFree(m) && BraceFree(n) && m != n
    requires Text.OccursAt(s, Placeholder(n), i)
    ensures Text.OccursAt(s, Placeholder(m), j) ==>
      j + |Placeholder(m)| <= i || i + |Placeholder(n)| <= j
  {
    PlaceholderAt(s, n, i);
    if Text.OccursAt(s, Placeholder(m), j) {
      PlaceholderAt(s, m, j);
    }
  }

  /** A placeholder whose name no path argument supplies stays in the URL,
      whatever the values, as long as the names involved have no braces. */
  lemma {:induction false} SubstituteLeavesUnknown(template: string, params: Fields, n: string)
    requires BraceFree(n) && Text.Contains(template, Placeholder(n))
    requires forall i :: 0 <= i < |params| ==> BraceFree(params[i].0) && params[i].0 != n
    ensures Text.Contains(Substitute(template, params), Placeholder(n))
    decreases |params|
  {
    if params != [] {
      var m := params[0].0;
      var i := Text.IndexOf(template, Placeholder(n)).value;
      forall j | Text.OccursAt(template, Placeholder(m), j)
        ensures j + |Placeholder(m)| <= i || i + |Placeholder(n)| <= j
      {
        PlaceholdersApart(template, m, n, j, i);
      }
      var next := Text.ReplaceAll(template, Placeholder(m), Format(params[0].1));
      Text.ReplaceKeeps(template, Placeholder(m), Format(params[0].1), Placeholder(n), i);
      assert forall k :: 0 <= k < |params[1..]| ==> params[1..][k] == params[k + 1];
      SubstituteLeavesUnknown(next, params[1..], n);
    }
  }

  /** A path template cut at its placeholders: literal text and names. */
  datatype Piece = Lit(text: string) | Hole(name: string)

  function PieceText(p: Piece): string {
    match p
    case Lit(t) => t
    case Hole(n) => Placeholder(n)
  }

  /** The template text the pieces spell. */
  function Spell(ps: seq<Piece>): string {
    if ps == [] then "" else PieceText(ps[0]) + Spell(ps[1..])
  }

  /** Neither literal text nor names hold braces, so the only braces of the
      spelled template delimit its placeholders. */
  predicate PlainPieces(ps: seq<Piece>) {
    forall i :: 0 <= i < |ps| ==> BraceFree(if ps[i].Lit? then ps[i].text else ps[i].name)
  }

  /** What a piece becomes in the URL: a placeholder with a path value
      becomes `str(value)`; anything else stays as written. */
  function Filled(p: Piece, params: Fields): string {
    match p
    case Lit(t) => t
    case Hole(n) => if Get(params, n).Some? then Format(Get(params, n).value) else Placeholder(n)
  }

  /** The URL path the template should become, piece by piece. */
  function Fill(ps: seq<Piece>, params: Fields): string {
    if ps == [] then "" else Filled(ps[0], params) + Fill(ps[1..], params)
  }

  /** The placeholders named `m` turned into the literal `v`. */
  function Plug(ps: seq<Piece>, m: string, v: string): seq<Piece> {
    if ps == [] then []
    else [if ps[0] == Hole(m) then Lit(v) else ps[0]] + Plug(ps[1..], m, v)
  }

  lemma {:induction false} PlugPlain(ps: seq<Piece>, m: string, v: string)
    requires PlainPieces(ps) && BraceFree(v)
    ensures PlainPieces(Plug(ps, m, v))
  {
    if ps != [] {
      assert PlainPieces(ps[1..]) by {
        forall i | 0 <= i < |ps[1..]|
          ensures BraceFree(if ps[1..][i].Lit? then ps[1..][i].text else ps[1..][i].name)
        {
          assert ps[1..][i] == ps[i + 1];
        }
      }
      PlugPlain(ps[1..], m, v);
      var r := Plug(ps, m, v);
      forall i | 0 <= i < |r|
        ensures BraceFree(if r[i].Lit? then r[i].text else r[i].name)
      {
        if i > 0 {
          assert r[i] == Plug(ps[1..], m, v)[i - 1];
        }
      }
    }
  }

  lemma PlainTail(ps: seq<Piece>)
    requires ps != [] && PlainPieces(ps)
    ensures PlainPieces(ps[1..])
    ensures BraceFree(if ps[0].Lit? then ps[0].text else ps[0].name)
  {
    forall i | 0 <= i < |ps[1..]|
      ensures BraceFree(if ps[1..][i].Lit? then ps[1..][i].text else ps[1..][i].name)
    {
      assert ps[1..][i] == ps[i + 1];
    }
  }

  /** Without path values, every piece is spelled as written. */
  lemma {:induction false} FillNothing(ps: seq<Piece>)
    ensures Fill(ps, []) == Spell(ps)
  {
    if ps != [] {
      FillNothing(ps[1..]);
    }
  }

  /** Replacing `{m}` in the spelled template plugs the placeholders named `m`. */
  lemma {:induction false} ReplaceSpell(ps: seq<Piece>, m: string, v: string)
    requires PlainPieces(ps) && BraceFree(m)
    ensures Text.ReplaceAll(Spell(ps), Placeholder(m), v) == Spell(Plug(ps, m, v))
  {
    var pm := Placeholder(m);
    if ps == [] {
      Text.ReplaceAllNone("", pm, v);
    } else {
      PlainTail(ps);
      ReplaceSpell(ps[1..], m, v);
      var head := PieceText(ps[0]);
      var rest := Spell(ps[1..]);
      if ps[0] == Hole(m) {
        Text.ReplaceAtStart(pm, rest, v);
      } else {
        var s := head + rest;
        forall j | 0 <= j < |head|
          ensures !Text.OccursAt(s, pm, j)
        {
          if ps[0].Lit? {
            assert s[j] == head[j];
            NoPlaceholderAt(s, m, j);
          } else {
            assert Text.OccursAt(s, head, 0) by {
              assert s[..|head|] == head;
            }
            PlaceholdersApart(s, m, ps[0].name, j, 0);
          }
        }
        Text.ReplaceAfter(head, rest, pm, v);
      }
    }
  }

  /** Filling the plugged template without the first parameter is filling
      the template with it, since path parameter names are unique. */
  lemma {:induction false} FillPlug(ps: seq<Piece>, params: Fields)
    requires params != [] && UniqueKeys(params)
    ensures Fill(Plug(ps, params[0].0, Format(params[0].1)), params[1..]) == Fill(ps, params)
  {
    if ps != [] {
      FillPlug(ps[1..], params);
      GetUnique(params, 0);
    }
  }

  lemma UniqueTail(fs: Fields)
    requires fs != [] && UniqueKeys(fs)
    ensures UniqueKeys(fs[1..])
  {
    forall i, j | 0 <= i < j < |fs[1..]|
      ensures fs[1..][i].0 != fs[1..][j].0
    {
      assert fs[1..][i] == fs[i + 1] && fs[1..][j] == fs[j + 1];
    }
  }

  /** Substitution over a template whose only braces delimit placeholders,
      with brace-free names and values: each placeholder with a value becomes
      `str(value)`, each without one stays, and the text between them is
      kept. */
  lemma {:induction false} SubstituteFills(ps: seq<Piece>, params: Fields)
    requires PlainPieces(ps) && UniqueKeys(params)
    requires forall i :: 0 <= i < |params| ==> BraceFree(params[i].0) && BraceFree(Format(params[i].1))
    ensures Substitute(Spell(ps), params) == Fill(ps, params)
    decreases |params|
  {
    if params == [] {
      FillNothing(ps);
    } else {
      var m := params[0].0;
      var v := Format(params[0].1);
      ReplaceSpell(ps, m, v);
      PlugPlain(ps, m, v);
      UniqueTail(params);
      assert forall k :: 0 <= k < |params[1..]| ==> params[1..][k] == params[k + 1];
      SubstituteFills(Plug(ps, m, v), params[1..]);
      FillPlug(ps, params);
    }
  }

  /** The split keeps path parameter names unique, as the dict it builds does. */
  lemma {:induction false} SplitFromUnique(args: Fields, acc: SplitArgs)
    requires UniqueKeys(acc.path)
    ensures UniqueKeys(SplitFrom(args, acc).path)
    decreases |args|
  {
    if args != [] {
      var (key, value) := args[0];
      if "path_" <= key {
        PutUnique(acc.path, key[5..], value);
        SplitFromUnique(args[1..], acc.(path := Put(acc.path, key[5..], value)));
      } else if "query_" <= key {
        SplitFromUnique(args[1..], acc.(query := Put(acc.query, key[6..], value)));
      } else if "body_" <= key {
        SplitFromUnique(args[1..], acc.(body := Put(acc.body, key[5..], value)));
      } else {
        SplitFromUnique(args[1..], acc);
      }
    }
  }

  /** Every `path_` argument has a brace-free name and a brace-free value. */
  predicate PlainPathArguments(args: Fields) {
    forall i :: 0 <= i < |args| && "path_" <= args[i].0 ==>
      BraceFree(args[i].0[5..]) && BraceFree(Format(args[i].1))
  }

  /** For a template whose only braces delimit placeholders and brace-free
      path arguments, the URL is the base URL followed by the template with
      each placeholder that has a `path_` argument replaced by `str(value)`,
      every other placeholder kept, and the text between them unchanged. */
  lemma BuildRequestFills(baseUrl: string, auth: string, op: Operation, args: Fields, ps: seq<Piece>)
    requires op.path == Spell(ps) && PlainPieces(ps) && PlainPathArguments(args)
    ensures BuildRequest(baseUrl, auth, op, args).url == baseUrl + Fill(ps, SplitArguments(args).path)
  {
    var path := SplitArguments(args).path;
    SplitFromUnique(args, NoArgs);
    forall i | 0 <= i < |path|
      ensures BraceFree(path[i].0) && BraceFree(Format(path[i].1))
    {
      var k := path[i].0;
      GetUnique(path, i);
      SplitArgumentsSpec(args, k);
      GetFindsEntry(args, "path_" + k);
      var j :| 0 <= j < |args| && args[j] == ("path_" + k, path[i].1);
      PrefixSplit(args[j].0, "path_", k);
    }
    SubstituteFills(ps, path);
  }

  predicate HasBodyArgument(args: Fields) {
    exists i :: 0 <= i < |args| && "body_" <= args[i].0
  }

  lemma BodyNonEmpty(args: Fields)
    ensures SplitArguments(args).body != [] <==> HasBodyArgument(args)
  {
    var body := SplitArguments(args).body;
    if body != [] {
      EmptyIffNoKey(body);
      var k :| Get(body, k).Some?;
      SplitArgumentsSpec(args, k);
      GetFindsEntry(args, "body_" + k);
      var i :| 0 <= i < |args| && args[i] == ("body_" + k, Get(args, "body_" + k).value);
      assert "body_" <= args[i].0;
    }
    if HasBodyArgument(args) {
      var i :| 0 <= i < |args| && "body_" <= args[i].0;
      var k := args[i].0[5..];
      PrefixSplit(args[i].0, "body_", k);
      assert Keys(args)[i] == "body_" + k;
      GetSomeIffHasKey(args, "body_" + k);
      SplitArgumentsSpec(args, k);
      EmptyIffNoKey(body);
    }
  }

  /** The request carries the credentials and asks for JSON, and has no
      other header except the JSON content type; it has a JSON body, and then the JSON content type, exactly for POST, PUT and PATCH
      with at least one `body_` argument; the body and query hold the
      routed arguments; the URL is the base URL followed by the
      substituted path. */
  lemma BuildRequestSpec(baseUrl: string, auth: string, op: Operation, args: Fields, k: string)
    ensures
      var r := BuildRequest(baseUrl, auth, op, args);
      && r.verb == op.verb
      && |r.headers| == (if r.body.Some? then 3 else 2)
      && r.headers[..2] == [("Authorization", "Basic " + auth), ("Accept", "application/json")]
      && (r.body.Some? <==> op.verb in BodyVerbs && HasBodyArgument(args))
      && (("Content-Type", "application/json") in r.headers <==> r.body.Some?)
      && (r.body.Some? ==> r.body.value.Obj? && Get(r.body.value.fields, k) == Get(args, "body_" + k))
      && Get(r.query, k) == Get(args, "query_" + k)
      && r.url == baseUrl + Substitute(op.path, SplitArguments(args).path)
  {
    BodyNonEmpty(args);
    SplitArgumentsSpec(args, k);
    var r := BuildRequest(baseUrl, auth, op, args);
    assert r.headers[0].0 == "Authorization" && r.headers[1].0 == "Accept";
  }

  // ------------------------------------------------ response classification

  /** The first `PreviewLength` characters of `s`, as Python's `s[:500]`. */
  predicate IsPreview(p: string, s: string) {
    && |p| == (if |s| <= PreviewLength then |s| else PreviewLength)
    && p == s[..|p|]
  }

  /** A transport failure is reported with its exception's name and message;
      a response is an HTTP error, carrying its status and detail, exactly
      when its status is not 2xx, and a success otherwise; 204 gives the
      fixed payload whatever the body, any other success gives the parsed
      JSON when there is one, and a success that is neither JSON nor HTML
      wraps the raw text as `{"response": text}`. */
  lemma ClassifySpec(x: Exchange)
    ensures Classify(x).TransportError? <==> x.Failed?
    ensures x.Failed? ==> Classify(x) == TransportError(x.kind, x.message)
    ensures Classify(x).HttpError? <==> x.Received? && !(200 <= x.response.status < 300)
    ensures Classify(x).Success? <==> x.Received? && 200 <= x.response.status < 300
    ensures x.Received? && !(200 <= x.response.status < 300) ==>
      Classify(x) == HttpError(x.response.status, Detail(x.response))
    ensures x.Received? && x.response.status == 204 ==> Classify(x) == Success(NoContentPayload)
    ensures x.Received? && 200 <= x.response.status < 300 && x.response.status != 204 && x.response.json.Some? ==>
      Classify(x) == Success(x.response.json.value)
    ensures (x.Received? && 200 <= x.response.status < 300 && x.response.status != 204
             && x.response.json.None? && !IsHtml(x.response.contentType)) ==>
      Classify(x) == Success(Obj([("response", Str(x.response.text))]))
  {
  }

  /** An HTML success reply is summarised as a success object with its
      content type and exactly the first 500 characters of its text. */
  lemma HtmlPreview(r: Response)
    requires 200 <= r.status < 300 && r.status != 204 && r.json.None? && IsHtml(r.contentType)
    ensures Classify(Received(r)).Success? && Classify(Received(r)).payload.Obj?
    ensures var fs := Classify(Received(r)).payload.fields;
      && Get(fs, "status") == Some(Str("success"))
      && Get(fs, "content_type") == Some(Str(r.contentType))
      && Get(fs, "text_preview").Some? && Get(fs, "text_preview").value.Str?
      && IsPreview(Get(fs, "text_preview").value.s, r.text)
  {
    var fs := Classify(Received(r)).payload.fields;
    assert fs == [fs[0]] + [fs[1]] + [fs[2]] + [fs[3]];
    forall k | k in {"status", "content_type", "text_preview"}
      ensures Get(fs, k) == if k == "status" then Some(fs[0].1)
                           else if k == "content_type" then Some(fs[1].1)
                           else Some(fs[3].1)
    {
      GetConcat([fs[0]] + [fs[1]] + [fs[2]], [fs[3]], k);
      GetConcat([fs[0]] + [fs[1]], [fs[2]], k);
      GetConcat([fs[0]], [fs[1]], k);
      GetSingle(fs[0].0, fs[0].1, k);
      GetSingle(fs[1].0, fs[1].1, k);
      GetSingle(fs[2].0, fs[2].1, k);
      GetSingle(fs[3].0, fs[3].1, k);
    }
  }

  /** The error detail is the parsed body when there is one; of an HTML page,
      the title the pattern `<title>(.*?)</title>` finds ignoring case, and
      no title for an empty page; of any other reply, exactly the first 500
      characters of the text. */
  lemma DetailSpec(r: Response)
    ensures r.json.Some? <==> Detail(r).JsonDetail?
    ensures r.json.Some? ==> Detail(r) == JsonDetail(r.json.value)
    ensures r.json.None? && IsHtml(r.contentType) ==>
      Detail(r) == HtmlPage(r.status, if r.text == "" then None else TitleOf(r.text))
    ensures r.json.None? && !IsHtml(r.contentType) ==>
      Detail(r).RawText? && IsPreview(Detail(r).text, r.text)
  {
  }

  /** A concrete title, with the tag in capitals. */
  lemma TitleExample()
    ensures TitleOf("<TITLE>x</title>") == Some("x")
  {
    var s := "<TITLE>x</title>";
    assert OpensAt(s, 0) by {
      forall m | 0 <= m < |OpenTag| ensures FoldChar(s[m]) == OpenTag[m] {
      }
    }
    assert !ClosesAt(s, 7) by {
      assert FoldChar(s[7 + 0]) != CloseTag[0];
    }
    assert ClosesAt(s, 8) by {
      forall m | 0 <= m < |CloseTag| ensures FoldChar(s[8 + m]) == CloseTag[m] {
      }
    }
    assert CloseFrom(s, 7) == Some(8);
    assert TitleFrom(s, 0) == Some((0, 8));
    assert s[7..8] == "x";
  }

}

=== FILE: json.dfy ===
/** The JSON-like tree the OpenAPI document, the converted schemas and the
    tool arguments are made of. Objects are association lists so that the
    insertion order of Python dicts, on which tool order depends, is kept. */
module JsonTree {
  import opened Wrappers

  datatype Json =
    | Null
    | Bool(b: bool)
    | Num(n: int)
    | Str(s: string)
    | Arr(items: seq<Json>)
    | Obj(fields: seq<(string, Json)>)

  type Fields = seq<(string, Json)>

  /** The keys of an object, in insertion order. */
  function Keys(fs: Fields): (ks: seq<string>)
    ensures |ks| == |fs|
    ensures forall i :: 0 <= i < |fs| ==> ks[i] == fs[i].0
  {
    if fs == [] then [] else [fs[0].0] + Keys(fs[1..])
  }

  predicate HasKey(fs: Fields, k: string) {
    k in Keys(fs)
  }

  /** Dict lookup. Python dicts hold each key once; on an association list
      the last entry for a key is the one a sequence of assignments left. */
  function Get(fs: Fields, k: string): Option<Json> {
    if fs == [] then None
    else
      var later := Get(fs[1..], k);
      if later.Some? then later
      else if fs[0].0 == k then Some(fs[0].1)
      else None
  }

  /** `d[k] = v`: overwrite the entry for `k` in place, or append it. */
  function Put(fs: Fields, k: string, v: Json): Fields {
    if fs == [] then [(k, v)]
    else if fs[0].0 == k && !HasKey(fs[1..], k) then [(k, v)] + fs[1..]
    else [fs[0]] + Put(fs[1..], k, v)
  }

  /** `d.update(g)`: assign every entry of `g` in order. */
  function Update(fs: Fields, gs: Fields): Fields
    decreases |gs|
  {
    if gs == [] then fs else Update(Put(fs, gs[0].0, gs[0].1), gs[1..])
  }

  /** No key occurs twice, as in every Python dict. */
  predicate UniqueKeys(fs: Fields) {
    forall i, j :: 0 <= i < j < |fs| ==> fs[i].0 != fs[j].0
  }

  lemma {:induction false} GetSomeIffHasKey(fs: Fields, k: string)
    ensures Get(fs, k).Some? <==> HasKey(fs, k)
  {
    if fs != [] {
      GetSomeIffHasKey(fs[1..], k);
      assert Keys(fs) == [fs[0].0] + Keys(fs[1..]);
    }
  }

  /** A lookup finds an entry of the object with that key. */
  lemma {:induction false} GetFindsEntry(fs: Fields, k: string)
    requires Get(fs, k).Some?
    ensures exists i :: 0 <= i < |fs| && fs[i] == (k, Get(fs, k).value)
  {
    var later := Get(fs[1..], k);
    if later.Some? {
      GetFindsEntry(fs[1..], k);
      var i :| 0 <= i < |fs[1..]| && fs[1..][i] == (k, later.value);
      assert fs[i + 1] == (k, Get(fs, k).value);
    } else {
      assert fs[0] == (k, Get(fs, k).value);
    }
  }

  /** In a dict with unique keys, the lookup of an entry's key yields that entry. */
  lemma {:induction false} GetUnique(fs: Fields, i: nat)
    requires UniqueKeys(fs) && i < |fs|
    ensures Get(fs, fs[i].0) == Some(fs[i].1)
  {
    if i == 0 {
      assert !HasKey(fs[1..], fs[0].0);
      GetSomeIffHasKey(fs[1..], fs[0].0);
    } else {
      GetUnique(fs[1..], i - 1);
    }
  }

  /** Assignment semantics: the assigned key reads back the new value,
      every other key reads back what it read before. */
  lemma {:induction false} PutGet(fs: Fields, k: string, v: Json, k': string)
    ensures Get(Put(fs, k, v), k') == if k' == k then Some(v) else Get(fs, k')
  {
    if fs == [] {
    } else if fs[0].0 == k && !HasKey(fs[1..], k) {
      GetSomeIffHasKey(fs[1..], k);
    } else {
      PutGet(fs[1..], k, v, k');
      var r := Put(fs, k, v);
      assert r[1..] == Put(fs[1..], k, v);
    }
  }

  /** Assignment keeps the position of an existing key and appends a new one. */
  lemma {:induction false} PutKeys(fs: Fields, k: string, v: Json)
    ensures Keys(Put(fs, k, v)) == if HasKey(fs, k) then Keys(fs) else Keys(fs) + [k]
  {
    if fs == [] {
    } else if fs[0].0 == k && !HasKey(fs[1..], k) {
      assert Keys(fs) == [fs[0].0] + Keys(fs[1..]);
      assert Keys([(k, v)] + fs[1..]) == [k] + Keys(fs[1..]);
    } else {
      PutKeys(fs[1..], k, v);
      assert Keys(fs) == [fs[0].0] + Keys(fs[1..]);
      var r := Put(fs, k, v);
      assert r == [fs[0]] + Put(fs[1..], k, v);
      assert Keys(r) == [fs[0].0] + Keys(Put(fs[1..], k, v));
    }
  }

  /** `Put` keeps keys unique. */
  lemma PutUnique(fs: Fields, k: string, v: Json)
    requires UniqueKeys(fs)
    ensures UniqueKeys(Put(fs, k, v))
  {
    PutKeys(fs, k, v);
    var r := Put(fs, k, v);
    forall i, j | 0 <= i < j < |r|
      ensures r[i].0 != r[j].0
    {
      assert Keys(r)[i] == r[i].0 && Keys(r)[j] == r[j].0;
    }
  }

  /** Merge semantics of `dict.update`: a key present in the update reads
      the update's value (the later entry wins), any other key is unchanged. */
  lemma {:induction false} UpdateGet(fs: Fields, gs: Fields, k: string)
    ensures Get(Update(fs, gs), k) == if Get(gs, k).Some? then Get(gs, k) else Get(fs, k)
    decreases |gs|
  {
    if gs != [] {
      UpdateGet(Put(fs, gs[0].0, gs[0].1), gs[1..], k);
      PutGet(fs, gs[0].0, gs[0].1, k);
    }
  }

  /** The keys after `update` are the old keys plus the update's keys. */
  lemma {:induction false} UpdateHasKey(fs: Fields, gs: Fields, k: string)
    ensures HasKey(Update(fs, gs), k) <==> HasKey(fs, k) || HasKey(gs, k)
  {
    UpdateGet(fs, gs, k);
    GetSomeIffHasKey(Update(fs, gs), k);
    GetSomeIffHasKey(fs, k);
    GetSomeIffHasKey(gs, k);
  }

  /** Lookup in a concatenation: the later part wins. */
  lemma {:induction false} GetConcat(a: Fields, b: Fields, k: string)
    ensures Get(a + b, k) == if Get(b, k).Some? then Get(b, k) else Get(a, k)
    decreases |a|
  {
    if a == [] {
      assert a + b == b;
    } else {
      assert (a + b)[1..] == a[1..] + b;
      GetConcat(a[1..], b, k);
    }
  }

  /** An object is empty exactly when no key is found in it. */
  lemma EmptyIffNoKey(fs: Fields)
    ensures fs == [] <==> forall k :: Get(fs, k).None?
  {
    if fs != [] {
      GetSomeIffHasKey(fs, fs[0].0);
      assert Keys(fs)[0] == fs[0].0;
    }
  }

  lemma GetSingle(a: string, v: Json, k: string)
    ensures Get([(a, v)], k) == if a == k then Some(v) else None
  {
    assert [(a, v)][1..] == [];
  }
}

=== FILE: python.dfy ===
/** The handful of Python object operations the core applies to the parsed
    document: truthiness, `in`, subscripting, `.get`, `.items()`, iteration,
    `[0]`, item assignment and `str()`. Each one is total on every kind of
    JSON value and returns the exception Python raises where it raises. */
module PyOps {
  import opened Wrappers
  import opened JsonTree
  import Text

  /** The exceptions the core can raise. `TypeError` also stands for
      `AttributeError` (a dict method called on a non-dict). */
  datatype Fault =
    | KeyError(key: string)
    | IndexError
    | TypeError(message: string)
    | RecursionLimit
    | ValidationError(field: string)

  /** Python truthiness: `None`, `False`, `0`, and empty strings, lists and dicts are false. */
  predicate Truthy(j: Json) {
    match j
    case Null => false
    case Bool(b) => b
    case Num(n) => n != 0
    case Str(s) => s != ""
    case Arr(items) => items != []
    case Obj(fs) => fs != []
  }

  /** Lists and dicts cannot be dict keys or set members. */
  predicate Hashable(j: Json) {
    !j.Arr? && !j.Obj?
  }

  /** What Python's `==` and `hash` see in a hashable value: `True` and
      `False` compare and hash as `1` and `0`. */
  function EqKey(j: Json): Json {
    if j.Bool? then Num(if j.b then 1 else 0) else j
  }

  /** Python's `==` on hashable values, case by case. */
  predicate PyEq(x: Json, y: Json) {
    match (x, y)
    case (Null, Null) => true
    case (Bool(a), Bool(b)) => a == b
    case (Bool(a), Num(n)) => n == (if a then 1 else 0)
    case (Num(n), Bool(b)) => n == (if b then 1 else 0)
    case (Num(n), Num(m)) => n == m
    case (Str(s), Str(t)) => s == t
    case _ => false
  }

  /** Equal keys are exactly Python-equal values. */
  lemma EqKeyIsPyEq(x: Json, y: Json)
    requires Hashable(x) && Hashable(y)
    ensures EqKey(x) == EqKey(y) <==> PyEq(x, y)
  {
  }

  /** `needle in container`: key test on a dict, membership on a list,
      substring test on a string. */
  function In(needle: Json, container: Json): Result<bool, Fault> {
    match container
    case Obj(fs) =>
      if !Hashable(needle) then Err(TypeError("unhashable type"))
      else Ok(needle.Str? && HasKey(fs, needle.s))
    case Arr(items) => Ok(needle in items)
    case Str(s) =>
      if needle.Str? then Ok(Text.Contains(s, needle.s))
      else Err(TypeError("'in <string>' requires string as left operand"))
    case _ => Err(TypeError("argument of type is not iterable"))
  }

  /** `key in container` for a string key. */
  function HasEntry(container: Json, key: string): Result<bool, Fault> {
    In(Str(key), container)
  }

  /** `container[key]` for a string key. */
  function Subscript(container: Json, key: string): Result<Json, Fault> {
    match container
    case Obj(fs) =>
      (match Get(fs, key)
       case Some(v) => Ok(v)
       case None => Err(KeyError(key)))
    case _ => Err(TypeError("indices must be integers"))
  }

  /** `container.get(key, default)`. */
  function GetOr(container: Json, key: string, default: Json): Result<Json, Fault> {
    match container
    case Obj(fs) =>
      (match Get(fs, key)
       case Some(v) => Ok(v)
       case None => Ok(default))
    case _ => Err(TypeError("object has no attribute 'get'"))
  }

  /** `container.items()`. */
  function Items(container: Json): Result<Fields, Fault> {
    match container
    case Obj(fs) => Ok(fs)
    case _ => Err(TypeError("object has no attribute 'items'"))
  }

  function KeysAsJson(fs: Fields): seq<Json> {
    if fs == [] then [] else [Str(fs[0].0)] + KeysAsJson(fs[1..])
  }

  function Chars(s: string): seq<Json> {
    if s == "" then [] else [Str([s[0]])] + Chars(s[1..])
  }

  /** The values `for x in j` visits: list items, dict keys, string characters. */
  function Iterate(j: Json): Result<seq<Json>, Fault> {
    match j
    case Arr(items) => Ok(items)
    case Obj(fs) => Ok(KeysAsJson(fs))
    case Str(s) => Ok(Chars(s))
    case _ => Err(TypeError("object is not iterable"))
  }

  /** `j[0]`. */
  function First(j: Json): Result<Json, Fault> {
    match j
    case Arr(items) => if items == [] then Err(IndexError) else Ok(items[0])
    case Str(s) => if s == "" then Err(IndexError) else Ok(Str([s[0]]))
    case Obj(_) => Err(KeyError("0"))
    case _ => Err(TypeError("object is not subscriptable"))
  }

  /** `j[key] = value`, returning the updated dict. */
  function SetItem(j: Json, key: string, value: Json): Result<Json, Fault> {
    match j
    case Obj(fs) => Ok(Obj(Put(fs, key, value)))
    case _ => Err(TypeError("object does not support item assignment"))
  }

  /** `str(j)`, which is also what an f-string inserts. */
  function Format(j: Json): string
    decreases j, 2
  {
    match j
    case Null => "None"
    case Bool(b) => if b then "True" else "False"
    case Num(n) => Text.IntToString(n)
    case Str(s) => s
    case Arr(items) => "[" + ReprItems(items) + "]"
    case Obj(fs) => "{" + ReprFields(fs, j) + "}"
  }

  /** `repr(j)`; strings are quoted without escaping. */
  function Repr(j: Json): string
    decreases j, 3
  {
    if j.Str? then "'" + j.s + "'" else Format(j)
  }

  function ReprItems(items: seq<Json>): string
    decreases items
  {
    if items == [] then ""
    else if |items| == 1 then Repr(items[0])
    else Repr(items[0]) + ", " + ReprItems(items[1..])
  }

  /** The entries of the dict `parent`, as `repr` lists them. */
  function ReprFields(fs: Fields, ghost parent: Json): string
    requires forall i :: 0 <= i < |fs| ==> fs[i].1 < parent
    decreases parent, 1, |fs|
  {
    if fs == [] then ""
    else
      var entry := "'" + fs[0].0 + "': " + Repr(fs[0].1);
      if |fs| == 1 then entry else entry + ", " + ReprFields(fs[1..], parent)
  }
}

=== FILE: schema.dfy ===
/** The OpenAPI-to-JSON-Schema converter (`convert_openapi_to_json_schema`,
    server.py:64-119). `fuel` bounds the nesting depth: server.py has no
    cycle guard on `$ref`, and where Python would exhaust its recursion limit
    the model returns `RecursionLimit`. */
module SchemaConverter {
  import opened Wrappers
  import opened JsonTree
  import opened PyOps
  import Text

  /** What a missing or empty schema converts to. */
  const EmptyObjectSchema: Json := Obj([("type", Str("object")), ("properties", Obj([]))])

  /** The descriptive and validation keys copied verbatim, in copy order. */
  const DescriptiveKeys: seq<string> :=
    ["description", "title", "maxLength", "minLength", "maximum", "minimum",
     "pattern", "format", "nullable", "items", "enum"]

  /** The schema a `$ref` of the form `#/components/schemas/<Name>` designates,
      `None` when the reference has another form or names no component.
      A reference cut short after a matching `#`, `components` or `schemas`
      segment raises `IndexError`, as server.py indexes the split path blindly. */
  function ResolveRef(schema: Json, components: Json): Result<Option<Json>, Fault> {
    var hasRef :- HasEntry(schema, "$ref");
    if !hasRef then Ok(None)
    else
      var ref :- Subscript(schema, "$ref");
      if !ref.Str? then Err(TypeError("object has no attribute 'split'"))
      else
        var parts := Text.Split(ref.s, "/");
        if parts[0] != "#" then Ok(None)
        else if |parts| < 2 then Err(IndexError)
        else if parts[1] != "components" then Ok(None)
        else if |parts| < 3 then Err(IndexError)
        else if parts[2] != "schemas" then Ok(None)
        else if |parts| < 4 then Err(IndexError)
        else
          var schemas :- GetOr(components, "schemas", Obj([]));
          var known :- HasEntry(schemas, parts[3]);
          if !known then Ok(None)
          else
            var target :- Subscript(schemas, parts[3]);
            Ok(Some(target))
  }

  /** The running state of an `allOf` merge. */
  datatype Merge = Merge(properties: Fields, required: seq<Json>, schemaType: Json)

  const NoMerge: Merge := Merge([], [], Null)

  function Convert(fuel: nat, schema: Json, components: Json): Result<Json, Fault>
    decreases fuel, 3
  {
    if fuel == 0 then Err(RecursionLimit)
    else if !Truthy(schema) then Ok(EmptyObjectSchema)
    else
      var target :- ResolveRef(schema, components);
      if target.Some? then Convert(fuel - 1, target.value, components)
      else
        var hasAllOf :- HasEntry(schema, "allOf");
        if hasAllOf then ConvertAllOf(fuel, schema, components)
        else
          var hasOneOf :- HasEntry(schema, "oneOf");
          if hasOneOf then FirstAlternative(schema)
          else ConvertPlain(fuel, schema, components)
  }

  /** Merge the converted `allOf` sub-schemas. */
  function ConvertAllOf(fuel: nat, schema: Json, components: Json): Result<Json, Fault>
    requires fuel > 0
    decreases fuel, 2
  {
    var subs :- Subscript(schema, "allOf");
    var items :- Iterate(subs);
    var merged :- MergeFrom(fuel, items, components, NoMerge);
    MergedSchema(merged)
  }

  /** `schema.get("oneOf", [{}])[0]`, returned without conversion. */
  function FirstAlternative(schema: Json): Result<Json, Fault> {
    var alternatives :- GetOr(schema, "oneOf", Arr([Obj([])]));
    First(alternatives)
  }

  /** Convert the `allOf` sub-schemas left to right, folding each into the merge. */
  function MergeFrom(fuel: nat, items: seq<Json>, components: Json, m: Merge): Result<Merge, Fault>
    requires fuel > 0
    decreases fuel, 0, |items|
  {
    if items == [] then Ok(m)
    else
      var converted :- Convert(fuel - 1, items[0], components);
      var m' :- MergeStep(m, converted);
      MergeFrom(fuel, items[1..], components, m')
  }

  /** `d.update(p)` for a dict `p`. */
  function UpdateWith(fs: Fields, p: Json): Result<Fields, Fault> {
    if p.Obj? then Ok(Update(fs, p.fields))
    else Err(TypeError("dictionary update sequence element has wrong length"))
  }

  /** Fold one converted sub-schema into the merge: its properties overwrite,
      its required names are appended, and its type is taken while none is set. */
  function MergeStep(m: Merge, converted: Json): Result<Merge, Fault> {
    var props :- MergeProperties(m.properties, converted);
    var required :- MergeRequired(m.required, converted);
    var schemaType :- MergeType(m.schemaType, converted);
    Ok(Merge(props, required, schemaType))
  }

  function MergeProperties(props: Fields, converted: Json): Result<Fields, Fault> {
    var hasProps :- HasEntry(converted, "properties");
    if hasProps then
      var p :- Subscript(converted, "properties");
      UpdateWith(props, p)
    else Ok(props)
  }

  function MergeRequired(required: seq<Json>, converted: Json): Result<seq<Json>, Fault> {
    var hasRequired :- HasEntry(converted, "required");
    if hasRequired then
      var r :- Subscript(converted, "required");
      var names :- Iterate(r);
      Ok(required + names)
    else Ok(required)
  }

  function MergeType(schemaType: Json, converted: Json): Result<Json, Fault> {
    var hasType :- HasEntry(converted, "type");
    if hasType && !Truthy(schemaType) then Subscript(converted, "type") else Ok(schemaType)
  }

  /** `EqKey(x)` is the key of some element of `r`. */
  predicate KeyIn(x: Json, r: seq<Json>) {
    exists j :: 0 <= j < |r| && EqKey(r[j]) == EqKey(x)
  }

  /** The values of `xs` with Python-equal repetitions removed
      (`list(set(xs))`). A set keeps the first of several equal values
      added; Python leaves the order unspecified, the model keeps the order
      of first occurrences. */
  function Dedup(xs: seq<Json>): seq<Json>
    decreases |xs|
  {
    if xs == [] then []
    else
      var rest := Dedup(xs[..|xs| - 1]);
      if KeyIn(xs[|xs| - 1], rest) then rest else rest + [xs[|xs| - 1]]
  }

  /** Every value of `r` is a value of `xs`. */
  ghost predicate Within(r: seq<Json>, xs: seq<Json>) {
    forall j :: 0 <= j < |r| ==> r[j] in xs
  }

  /** Every value of `xs` is Python-equal to a value of `r`. */
  predicate Covers(r: seq<Json>, xs: seq<Json>) {
    forall i :: 0 <= i < |xs| ==> KeyIn(xs[i], r)
  }

  /** No two values of `r` are Python-equal. */
  predicate KeysApart(r: seq<Json>) {
    forall i, j :: 0 <= i < j < |r| ==> EqKey(r[i]) != EqKey(r[j])
  }

  /** Each value of `r` is the first of its class in `xs`. */
  ghost predicate FirstOfClass(r: seq<Json>, xs: seq<Json>) {
    forall j :: 0 <= j < |r| ==> exists i :: 0 <= i < |xs| && xs[i] == r[j] && !KeyIn(r[j], xs[..i])
  }

  /** `r` holds values of `xs`, one per class of Python-equal values of
      `xs`, and of each class the first that occurs in `xs`. */
  ghost predicate DistinctOf(r: seq<Json>, xs: seq<Json>) {
    Within(r, xs) && Covers(r, xs) && KeysApart(r) && FirstOfClass(r, xs)
  }

  /** `Dedup` keeps one value per class of Python-equal values, the first. */
  lemma {:induction false} DedupSpec(xs: seq<Json>)
    ensures DistinctOf(Dedup(xs), xs)
    decreases |xs|
  {
    if xs != [] {
      var init := xs[..|xs| - 1];
      var x := xs[|xs| - 1];
      DedupSpec(init);
      assert xs == init + [x];
      if KeyIn(x, Dedup(init)) {
        DistinctSkip(Dedup(init), init, x);
      } else {
        DistinctAdd(Dedup(init), init, x);
      }
    }
  }

  /** A value Python-equal to a kept one adds nothing. */
  lemma DistinctSkip(r: seq<Json>, xs: seq<Json>, x: Json)
    requires DistinctOf(r, xs) && KeyIn(x, r)
    ensures DistinctOf(r, xs + [x])
  {
    var ys := xs + [x];
    forall i | 0 <= i < |ys| ensures KeyIn(ys[i], r) {
      if i < |xs| {
        assert ys[i] == xs[i];
      }
    }
    forall j | 0 <= j < |r|
      ensures exists i :: 0 <= i < |ys| && ys[i] == r[j] && !KeyIn(r[j], ys[..i])
    {
      var i :| 0 <= i < |xs| && xs[i] == r[j] && !KeyIn(r[j], xs[..i]);
      assert ys[..i] == xs[..i];
    }
  }

  /** A value Python-equal to no kept one is kept, at the end. */
  lemma DistinctAdd(r: seq<Json>, xs: seq<Json>, x: Json)
    requires DistinctOf(r, xs) && !KeyIn(x, r)
    ensures DistinctOf(r + [x], xs + [x])
  {
    AddWithin(r, xs, x);
    AddCovers(r, xs, x);
    AddApart(r, x);
    AddFirst(r, xs, x);
  }

  lemma AddWithin(r: seq<Json>, xs: seq<Json>, x: Json)
    requires Within(r, xs)
    ensures Within(r + [x], xs + [x])
  {
    var r' := r + [x];
    forall j | 0 <= j < |r'| ensures r'[j] in xs + [x] {
      if j < |r| {
        assert r'[j] == r[j];
      }
    }
  }

  lemma AddCovers(r: seq<Json>, xs: seq<Json>, x: Json)
    requires Covers(r, xs)
    ensures Covers(r + [x], xs + [x])
  {
    var ys := xs + [x];
    var r' := r + [x];
    forall i | 0 <= i < |ys| ensures KeyIn(ys[i], r') {
      if i < |xs| {
        assert ys[i] == xs[i];
        var j :| 0 <= j < |r| && EqKey(r[j]) == EqKey(xs[i]);
        assert r'[j] == r[j];
      } else {
        assert r'[|r|] == x;
      }
    }
  }

  lemma AddApart(r: seq<Json>, x: Json)
    requires KeysApart(r) && !KeyIn(x, r)
    ensures KeysApart(r + [x])
  {
    var r' := r + [x];
    forall i, j | 0 <= i < j < |r'| ensures EqKey(r'[i]) != EqKey(r'[j]) {
      assert r'[i] == r[i];
      if j < |r| {
        assert r'[j] == r[j];
      } else {
        assert r'[j] == x;
      }
    }
  }

  /** A value Python-equal to a covered one is Python-equal to a kept one. */
  lemma CoveredKey(r: seq<Json>, xs: seq<Json>, x: Json)
    requires Covers(r, xs)
    ensures KeyIn(x, xs) ==> KeyIn(x, r)
  {
    if KeyIn(x, xs) {
      var i :| 0 <= i < |xs| && EqKey(xs[i]) == EqKey(x);
      var j :| 0 <= j < |r| && EqKey(r[j]) == EqKey(xs[i]);
      assert EqKey(r[j]) == EqKey(x);
    }
  }

  lemma AddFirst(r: seq<Json>, xs: seq<Json>, x: Json)
    requires FirstOfClass(r, xs) && Covers(r, xs) && !KeyIn(x, r)
    ensures FirstOfClass(r + [x], xs + [x])
  {
    var ys := xs + [x];
    var r' := r + [x];
    CoveredKey(r, xs, x);
    forall j | 0 <= j < |r'|
      ensures exists i :: 0 <= i < |ys| && ys[i] == r'[j] && !KeyIn(r'[j], ys[..i])
    {
      if j < |r| {
        var i :| 0 <= i < |xs| && xs[i] == r[j] && !KeyIn(r[j], xs[..i]);
        assert ys[..i] == xs[..i];
        assert r'[j] == r[j];
      } else {
        assert ys[..|xs|] == xs;
        assert ys[|xs|] == r'[j];
      }
    }
  }

  /** `list(set([True, 1]))` has one element, as `True == 1` in Python. */
  lemma DedupBoolInt()
    ensures Dedup([Bool(true), Num(1)]) == [Bool(true)]
  {
    var xs := [Bool(true), Num(1)];
    assert [Bool(true)][..0] == [];
    assert Dedup([Bool(true)]) == [Bool(true)];
    assert xs[..1] == [Bool(true)];
    assert KeyIn(Num(1), [Bool(true)]) by {
      assert EqKey([Bool(true)][0]) == EqKey(Num(1));
    }
  }

  /** `list(set(xs))`, which raises on a list or dict member. */
  function Distinct(xs: seq<Json>): Result<seq<Json>, Fault> {
    if exists i :: 0 <= i < |xs| && !Hashable(xs[i]) then Err(TypeError("unhashable type"))
    else Ok(Dedup(xs))
  }

  /** The schema an `allOf` merge produces. */
  function MergedSchema(m: Merge): Result<Json, Fault> {
    var required :- Distinct(m.required);
    Ok(Obj([("type", if Truthy(m.schemaType) then m.schemaType else Str("object"))]
           + (if m.properties != [] then [("properties", Obj(m.properties))] else [])
           + (if m.required != [] then [("required", Arr(required))] else [])))
  }

  /** The plain case: type, converted non-read-only properties, the required
      names that survived, and the descriptive keys. */
  function ConvertPlain(fuel: nat, schema: Json, components: Json): Result<Json, Fault>
    requires fuel > 0
    decreases fuel, 2
  {
    var typed :- TypeEntry(schema);
    var props :- PlainProperties(fuel, schema, components);
    var required :- PlainRequired(schema, props);
    var copied :- CopyKeys(schema, DescriptiveKeys);
    Ok(PlainLayout(typed, props, required, copied))
  }

  /** The plain result's keys in insertion order: type, properties, required,
      then the copied keys. */
  function PlainLayout(typed: Fields, props: Option<Fields>, required: Option<seq<Json>>, copied: Fields): Json {
    Obj(typed
        + (if props.Some? then [("properties", Obj(props.value))] else [])
        + (if required.Some? then [("required", Arr(required.value))] else [])
        + copied)
  }

  function TypeEntry(schema: Json): Result<Fields, Fault> {
    var hasType :- HasEntry(schema, "type");
    if hasType then
      var t :- Subscript(schema, "type");
      Ok([("type", t)])
    else Ok([])
  }

  /** The converted properties, `None` when the schema declares none. */
  function PlainProperties(fuel: nat, schema: Json, components: Json): Result<Option<Fields>, Fault>
    requires fuel > 0
    decreases fuel, 1
  {
    var hasProps :- HasEntry(schema, "properties");
    if hasProps then
      var p :- Subscript(schema, "properties");
      var entries :- Items(p);
      var out :- ConvertProps(fuel, entries, components, []);
      Ok(Some(out))
    else Ok(None)
  }

  /** The filtered `required` list, `None` when the schema has none. */
  function PlainRequired(schema: Json, props: Option<Fields>): Result<Option<seq<Json>>, Fault> {
    var hasRequired :- HasEntry(schema, "required");
    if hasRequired then
      var r :- Subscript(schema, "required");
      var names :- Iterate(r);
      var kept :- KeepDeclared(names, if props.Some? then props.value else []);
      Ok(Some(kept))
    else Ok(None)
  }

  /** Convert the property schemas left to right, skipping read-only ones. */
  function ConvertProps(fuel: nat, entries: Fields, components: Json, acc: Fields): Result<Fields, Fault>
    requires fuel > 0
    decreases fuel, 0, |entries|
  {
    if entries == [] then Ok(acc)
    else
      var readOnly :- GetOr(entries[0].1, "readOnly", Bool(false));
      if Truthy(readOnly) then ConvertProps(fuel, entries[1..], components, acc)
      else
        var converted :- Convert(fuel - 1, entries[0].1, components);
        ConvertProps(fuel, entries[1..], components, Put(acc, entries[0].0, converted))
  }

  /** `a` is `b` with some elements left out, the rest in their order. */
  predicate IsSubsequence(a: seq<Json>, b: seq<Json>)
    decreases |b|
  {
    if a == [] then true
    else if b == [] then false
    else (a[0] == b[0] && IsSubsequence(a[1..], b[1..])) || IsSubsequence(a, b[1..])
  }

  /** `x` is the name of a property in `props`. */
  predicate Declared(x: Json, props: Fields) {
    x.Str? && HasKey(props, x.s)
  }

  /** `kept` is `names` filtered by `Declared`: the declared names, each as
      many times as it occurs in `names`, no other name, in their order. */
  ghost predicate FilteredNames(kept: seq<Json>, names: seq<Json>, props: Fields) {
    && (forall x :: x in kept <==> x in names && Declared(x, props))
    && (forall x :: multiset(kept)[x] == if Declared(x, props) then multiset(names)[x] else 0)
    && IsSubsequence(kept, names)
  }

  /** `[r for r in names if r in props]`: the names that are declared
      properties, in their order. Testing a list or dict name raises. */
  function KeepDeclared(names: seq<Json>, props: Fields): (r: Result<seq<Json>, Fault>)
    ensures r.Err? <==> exists i :: 0 <= i < |names| && !Hashable(names[i])
    ensures r.Ok? ==> forall x :: x in r.value <==> x in names && Declared(x, props)
    ensures r.Ok? ==> forall x :: multiset(r.value)[x] == if Declared(x, props) then multiset(names)[x] else 0
    ensures r.Ok? ==> IsSubsequence(r.value, names)
    decreases |names|
  {
    if names == [] then Ok([])
    else
      var keep :- In(names[0], Obj(props));
      var rest :- KeepDeclared(names[1..], props);
      assert names == [names[0]] + names[1..];
      Ok(if keep then [names[0]] + rest else rest)
  }

  /** The entries of `schema` for those of `keys` it has, in the order of `keys`. */
  function CopyKeys(schema: Json, keys: seq<string>): Result<Fields, Fault> {
    if keys == [] then Ok([])
    else
      var present :- HasEntry(schema, keys[0]);
      var first :- if present then (var v :- Subscript(schema, keys[0]); Ok([(keys[0], v)])) else Ok([]);
      var rest :- CopyKeys(schema, keys[1..]);
      Ok(first + rest)
  }
}

=== FILE: schema_props.dfy ===
/** What `convert_openapi_to_json_schema` (server.py:64-119) promises, stated
    against reference definitions over its inputs: the falsy case, `$ref`
    resolution ahead of everything else, the `allOf` merge, the `oneOf`
    shortcut, the plain case, and the independence of the result from the
    depth bound. */
module SchemaFacts {
  import opened Wrappers
  import opened JsonTree
  import opened PyOps
  import opened SchemaConverter
  import Text

  // ------------------------------------------------------------ depth bound

  /** The depth bound only cuts recursion short: every answer other than
      `RecursionLimit` stays the same with more fuel. */
  lemma {:induction false} ConvertFuel(f: nat, g: nat, schema: Json, components: Json)
    requires f <= g
    requires Convert(f, schema, components) != Err(RecursionLimit)
    ensures Convert(g, schema, components) == Convert(f, schema, components)
    decreases f, 3
  {
    if Truthy(schema) {
      var target := ResolveRef(schema, components);
      if target.Ok? && target.value.Some? {
        ConvertFuel(f - 1, g - 1, target.value.value, components);
      } else if target.Ok? && HasEntry(schema, "allOf") == Ok(true) {
        ConvertAllOfFuel(f, g, schema, components);
      } else if target.Ok? && HasEntry(schema, "allOf") == Ok(false) && HasEntry(schema, "oneOf") == Ok(false) {
        ConvertPlainFuel(f, g, schema, components);
      }
    }
  }

  lemma {:induction false} ConvertAllOfFuel(f: nat, g: nat, schema: Json, components: Json)
    requires 0 < f <= g
    requires ConvertAllOf(f, schema, components) != Err(RecursionLimit)
    ensures ConvertAllOf(g, schema, components) == ConvertAllOf(f, schema, components)
    decreases f, 2
  {
    var subs := Subscript(schema, "allOf");
    if subs.Ok? && Iterate(subs.value).Ok? {
      var items := Iterate(subs.value).value;
      if MergeFrom(f, items, components, NoMerge) != Err(RecursionLimit) {
        MergeFromFuel(f, g, items, components, NoMerge);
      }
    }
  }

  lemma {:induction false} MergeFromFuel(f: nat, g: nat, items: seq<Json>, components: Json, m: Merge)
    requires 0 < f <= g
    requires MergeFrom(f, items, components, m) != Err(RecursionLimit)
    ensures MergeFrom(g, items, components, m) == MergeFrom(f, items, components, m)
    decreases f, 0, |items|
  {
    if items != [] {
      var c := Convert(f - 1, items[0], components);
      if c.Err? {
        assert MergeFrom(f, items, components, m) == Err(c.error);
        ConvertFuel(f - 1, g - 1, items[0], components);
      } else {
        ConvertFuel(f - 1, g - 1, items[0], components);
        var step := MergeStep(m, c.value);
        if step.Ok? {
          assert MergeFrom(f, items, components, m) == MergeFrom(f, items[1..], components, step.value);
          MergeFromFuel(f, g, items[1..], components, step.value);
          assert MergeFrom(g, items, components, m) == MergeFrom(g, items[1..], components, step.value);
        }
      }
    }
  }

  lemma {:induction false} ConvertPlainFuel(f: nat, g: nat, schema: Json, components: Json)
    requires 0 < f <= g
    requires ConvertPlain(f, schema, components) != Err(RecursionLimit)
    ensures ConvertPlain(g, schema, components) == ConvertPlain(f, schema, components)
    decreases f, 2
  {
    if PlainProperties(f, schema, components) != Err(RecursionLimit) {
      PlainPropertiesFuel(f, g, schema, components);
    }
  }

  lemma {:induction false} PlainPropertiesFuel(f: nat, g: nat, schema: Json, components: Json)
    requires 0 < f <= g
    requires PlainProperties(f, schema, components) != Err(RecursionLimit)
    ensures PlainProperties(g, schema, components) == PlainProperties(f, schema, components)
    decreases f, 1
  {
    var p := Subscript(schema, "properties");
    if p.Ok? && Items(p.value).Ok? {
      var entries := Items(p.value).value;
      if ConvertProps(f, entries, components, []) != Err(RecursionLimit) {
        ConvertPropsFuel(f, g, entries, components, []);
      }
    }
  }

  lemma {:induction false} ConvertPropsFuel(f: nat, g: nat, entries: Fields, components: Json, acc: Fields)
    requires 0 < f <= g
    requires ConvertProps(f, entries, components, acc) != Err(RecursionLimit)
    ensures ConvertProps(g, entries, components, acc) == ConvertProps(f, entries, components, acc)
    decreases f, 0, |entries|
  {
    if entries != [] {
      var c := Convert(f - 1, entries[0].1, components);
      if c != Err(RecursionLimit) {
        ConvertFuel(f - 1, g - 1, entries[0].1, components);
      }
      if ConvertProps(f, entries[1..], components, acc) != Err(RecursionLimit) {
        ConvertPropsFuel(f, g, entries[1..], components, acc);
      }
      if c.Ok? {
        var acc' := Put(acc, entries[0].0, c.value);
        if ConvertProps(f, entries[1..], components, acc') != Err(RecursionLimit) {
          ConvertPropsFuel(f, g, entries[1..], components, acc');
        }
      }
    }
  }

  // ------------------------------------------------------- falsy and $ref

  /** A missing or empty schema becomes an empty object schema. */
  lemma FalsySchema(fuel: nat, schema: Json, components: Json)
    requires fuel > 0 && !Truthy(schema)
    ensures Convert(fuel, schema, components) == Ok(EmptyObjectSchema)
  {
  }

  /** A reference `#/components/schemas/<name>` designates the component
      schema of that name, or nothing when there is none. */
  lemma ResolveLocalRef(schema: Json, components: Json, name: string, defs: Fields)
    requires schema.Obj? && Get(schema.fields, "$ref") == Some(Str("#/components/schemas/" + name))
    requires !Text.Contains(name, "/")
    requires components.Obj? && Get(components.fields, "schemas") == Some(Obj(defs))
    ensures ResolveRef(schema, components) == Ok(Get(defs, name))
  {
    GetSomeIffHasKey(schema.fields, "$ref");
    GetSomeIffHasKey(defs, name);
    assert Text.Split("#/components/schemas/" + name, "/") == ["#", "components", "schemas", name] by {
      LocalRefParts(name);
    }
  }

  /** The segments of a local component reference. */
  lemma LocalRefParts(name: string)
    requires !Text.Contains(name, "/")
    ensures Text.Split("#/components/schemas/" + name, "/") == ["#", "components", "schemas", name]
  {
    var middle := "components/schemas/" + name;
    assert "#/components/schemas/" + name == "#" + ['/'] + middle;
    Text.SplitAtChar("#", '/', middle);
    ComponentsParts(name);
  }

  lemma ComponentsParts(name: string)
    requires !Text.Contains(name, "/")
    ensures Text.Split("components/schemas/" + name, "/") == ["components", "schemas", name]
  {
    var tail := "schemas/" + name;
    assert "components/schemas/" + name == "components" + ['/'] + tail;
    Text.SplitAtChar("components", '/', tail);
    SchemasParts(name);
  }

  lemma SchemasParts(name: string)
    requires !Text.Contains(name, "/")
    ensures Text.Split("schemas/" + name, "/") == ["schemas", name]
  {
    assert "schemas/" + name == "schemas" + ['/'] + name;
    Text.SplitAtChar("schemas", '/', name);
    assert Text.Split(name, "/") == [name];
  }

  /** A resolvable reference is followed before `allOf`, `oneOf` or any
      other key of the referring schema is looked at. */
  lemma RefResolvedFirst(fuel: nat, schema: Json, components: Json, name: string, defs: Fields, target: Json)
    requires fuel > 0 && schema.Obj? && Get(schema.fields, "$ref") == Some(Str("#/components/schemas/" + name))
    requires !Text.Contains(name, "/")
    requires components.Obj? && Get(components.fields, "schemas") == Some(Obj(defs))
    requires Get(defs, name) == Some(target)
    ensures Convert(fuel, schema, components) == Convert(fuel - 1, target, components)
  {
    ResolveLocalRef(schema, components, name, defs);
    GetSomeIffHasKey(schema.fields, "$ref");
    assert Truthy(schema);
  }

  // ----------------------------------------------------------------- allOf

  /** The `properties` a converted sub-schema contributes to a merge. */
  function PropsOf(c: Json): Fields {
    if c.Obj? && Get(c.fields, "properties").Some? && Get(c.fields, "properties").value.Obj?
    then Get(c.fields, "properties").value.fields
    else []
  }

  /** The `required` names a converted sub-schema contributes. */
  function RequiredOf(c: Json): seq<Json> {
    if c.Obj? && Get(c.fields, "required").Some? && Iterate(Get(c.fields, "required").value).Ok?
    then Iterate(Get(c.fields, "required").value).value
    else []
  }

  function TypeOf(c: Json): Option<Json> {
    if c.Obj? then Get(c.fields, "type") else None
  }

  /** The sub-schemas converted one after another. */
  function ConvertEach(fuel: nat, items: seq<Json>, components: Json): Result<seq<Json>, Fault>
    decreases |items|
  {
    if items == [] then Ok([])
    else
      var c :- Convert(fuel, items[0], components);
      var rest :- ConvertEach(fuel, items[1..], components);
      Ok([c] + rest)
  }

  /** Property `k` as the last sub-schema that declares it gives it. */
  function LastProp(cs: seq<Json>, k: string): Option<Json>
    decreases |cs|
  {
    if cs == [] then None
    else
      var later := LastProp(cs[1..], k);
      if later.Some? then later else Get(PropsOf(cs[0]), k)
  }

  function AllRequired(cs: seq<Json>): seq<Json>
    decreases |cs|
  {
    if cs == [] then [] else RequiredOf(cs[0]) + AllRequired(cs[1..])
  }

  /** The first truthy `type` among the sub-schemas. */
  function FirstTruthyType(cs: seq<Json>): (r: Option<Json>)
    ensures r.Some? ==> Truthy(r.value) && exists i :: 0 <= i < |cs| && TypeOf(cs[i]) == r
    decreases |cs|
  {
    if cs == [] then None
    else if TypeOf(cs[0]).Some? && Truthy(TypeOf(cs[0]).value) then TypeOf(cs[0])
    else FirstTruthyType(cs[1..])
  }

  /** One merge step: later properties overwrite, required names append, and
      a type is taken while the merged type is falsy. */
  lemma MergeStepSpec(m: Merge, c: Json, m': Merge)
    requires MergeStep(m, c) == Ok(m')
    ensures forall k :: Get(m'.properties, k) == if Get(PropsOf(c), k).Some? then Get(PropsOf(c), k) else Get(m.properties, k)
    ensures m'.required == m.required + RequiredOf(c)
    ensures m'.schemaType == if !Truthy(m.schemaType) && TypeOf(c).Some? then TypeOf(c).value else m.schemaType
  {
    if c.Obj? {
      GetSomeIffHasKey(c.fields, "properties");
      GetSomeIffHasKey(c.fields, "required");
      GetSomeIffHasKey(c.fields, "type");
      forall k
        ensures Get(m'.properties, k) == if Get(PropsOf(c), k).Some? then Get(PropsOf(c), k) else Get(m.properties, k)
      {
        UpdateGet(m.properties, PropsOf(c), k);
      }
    }
  }

  /** The merge steps applied to already converted sub-schemas. */
  function MergeAll(m: Merge, cs: seq<Json>): Result<Merge, Fault>
    decreases |cs|
  {
    if cs == [] then Ok(m)
    else
      var m' :- MergeStep(m, cs[0]);
      MergeAll(m', cs[1..])
  }

  /** A successful merge converted every sub-schema, then folded them in. */
  lemma {:induction false} MergeFromConverts(fuel: nat, items: seq<Json>, components: Json, m: Merge, m': Merge)
    requires fuel > 0 && MergeFrom(fuel, items, components, m) == Ok(m')
    ensures ConvertEach(fuel - 1, items, components).Ok?
    ensures MergeAll(m, ConvertEach(fuel - 1, items, components).value) == Ok(m')
    decreases |items|
  {
    if items != [] {
      var c := Convert(fuel - 1, items[0], components).value;
      var m1 := MergeStep(m, c).value;
      MergeFromConverts(fuel, items[1..], components, m1, m');
      var cs := ConvertEach(fuel - 1, items, components).value;
      assert cs == [c] + ConvertEach(fuel - 1, items[1..], components).value;
      assert cs[1..] == ConvertEach(fuel - 1, items[1..], components).value;
    }
  }

  /** Properties of later sub-schemas overwrite those of earlier ones. */
  lemma {:induction false} MergeAllProperties(m: Merge, cs: seq<Json>, m': Merge, k: string)
    requires MergeAll(m, cs) == Ok(m')
    ensures Get(m'.properties, k) == if LastProp(cs, k).Some? then LastProp(cs, k) else Get(m.properties, k)
    decreases |cs|
  {
    if cs != [] {
      var m1 := MergeStep(m, cs[0]).value;
      MergeStepSpec(m, cs[0], m1);
      MergeAllProperties(m1, cs[1..], m', k);
    }
  }

  lemma MergeStepRequired(m: Merge, c: Json, m': Merge)
    requires MergeStep(m, c) == Ok(m')
    ensures m'.required == m.required + RequiredOf(c)
  {
    if c.Obj? {
      GetSomeIffHasKey(c.fields, "required");
    }
  }

  /** Required names accumulate in order. */
  lemma {:induction false} MergeAllRequired(m: Merge, cs: seq<Json>, m': Merge)
    requires MergeAll(m, cs) == Ok(m')
    ensures m'.required == m.required + AllRequired(cs)
    decreases |cs|
  {
    if cs != [] {
      var m1 := MergeStep(m, cs[0]).value;
      assert MergeAll(m1, cs[1..]) == Ok(m');
      MergeStepRequired(m, cs[0], m1);
      MergeAllRequired(m1, cs[1..], m');
      var first := RequiredOf(cs[0]);
      var rest := AllRequired(cs[1..]);
      assert AllRequired(cs) == first + rest;
      assert m1.required == m.required + first;
      assert (m.required + first) + rest == m.required + (first + rest);
    }
  }

  /** A truthy type, once set, stays; otherwise the first truthy type is taken. */
  lemma {:induction false} MergeAllType(m: Merge, cs: seq<Json>, m': Merge)
    requires MergeAll(m, cs) == Ok(m')
    ensures Truthy(m.schemaType) ==> m'.schemaType == m.schemaType
    ensures !Truthy(m.schemaType) && FirstTruthyType(cs).Some? ==> m'.schemaType == FirstTruthyType(cs).value
    ensures !Truthy(m.schemaType) && FirstTruthyType(cs).None? ==> !Truthy(m'.schemaType)
    decreases |cs|
  {
    if cs != [] {
      var m1 := MergeStep(m, cs[0]).value;
      MergeStepSpec(m, cs[0], m1);
      MergeAllType(m1, cs[1..], m');
    }
  }

  /** The shape of an `allOf` result, against the converted sub-schemas `cs`:
      the first truthy type (else "object"), the union of the properties with
      later sub-schemas winning, the union of the required names without
      repetitions, the last two only when non-empty, and nothing else. */
  ghost predicate AllOfResult(cs: seq<Json>, fs: Fields) {
    Get(fs, "type") == Some(if FirstTruthyType(cs).Some? then FirstTruthyType(cs).value else Str("object"))
    && (forall k :: HasKey(fs, k) ==> k in ["type", "properties", "required"])
    && (match Get(fs, "properties")
        case None => forall k :: LastProp(cs, k).None?
        case Some(p) => p.Obj? && p.fields != [] && forall k :: Get(p.fields, k) == LastProp(cs, k))
    && (match Get(fs, "required")
        case None => AllRequired(cs) == []
        case Some(q) =>
          q.Arr? && DistinctOf(q.items, AllRequired(cs)))
  }

  lemma AllOfMerges(fuel: nat, schema: Json, components: Json, subs: Json, items: seq<Json>, r: Json)
    requires fuel > 0 && schema.Obj? && ResolveRef(schema, components) == Ok(None)
    requires Get(schema.fields, "allOf") == Some(subs) && Iterate(subs) == Ok(items)
    requires Convert(fuel, schema, components) == Ok(r)
    ensures ConvertEach(fuel - 1, items, components).Ok?
    ensures r.Obj? && AllOfResult(ConvertEach(fuel - 1, items, components).value, r.fields)
  {
    GetSomeIffHasKey(schema.fields, "allOf");
    assert Truthy(schema);
    assert ConvertAllOf(fuel, schema, components) == Ok(r);
    var m := MergeFrom(fuel, items, components, NoMerge).value;
    MergeFromConverts(fuel, items, components, NoMerge, m);
    var cs := ConvertEach(fuel - 1, items, components).value;
    assert MergedSchema(m) == Ok(r);
    MergedShape(cs, m, r);
  }

  /** The schema built from a completed merge has the `allOf` shape. */
  lemma MergedShape(cs: seq<Json>, m: Merge, r: Json)
    requires MergeAll(NoMerge, cs) == Ok(m) && MergedSchema(m) == Ok(r)
    ensures r.Obj? && AllOfResult(cs, r.fields)
  {
    MergeAllRequired(NoMerge, cs, m);
    MergeAllType(NoMerge, cs, m);
    forall k ensures Get(m.properties, k) == LastProp(cs, k) {
      MergeAllProperties(NoMerge, cs, m, k);
    }
    EmptyIffNoKey(m.properties);
    DedupSpec(m.required);
    assert m.required == AllRequired(cs) by {
      assert NoMerge.required + AllRequired(cs) == AllRequired(cs);
    }
    if m.required != [] {
      assert Distinct(m.required).value == Dedup(m.required);
    }
    MergedEntries(m, r);
    assert !Truthy(NoMerge.schemaType);
    if FirstTruthyType(cs).Some? {
      assert m.schemaType == FirstTruthyType(cs).value;
    } else {
      assert !Truthy(m.schemaType);
    }
  }

  /** Where each key of a merged schema comes from. */
  lemma MergedEntries(m: Merge, r: Json)
    requires MergedSchema(m) == Ok(r)
    ensures r.Obj?
    ensures Get(r.fields, "type") == Some(if Truthy(m.schemaType) then m.schemaType else Str("object"))
    ensures Get(r.fields, "properties") == if m.properties != [] then Some(Obj(m.properties)) else None
    ensures Get(r.fields, "required") == if m.required != [] then Some(Arr(Distinct(m.required).value)) else None
    ensures forall k :: HasKey(r.fields, k) ==> k in ["type", "properties", "required"]
  {
    var t := [("type", if Truthy(m.schemaType) then m.schemaType else Str("object"))];
    var p := if m.properties != [] then [("properties", Obj(m.properties))] else [];
    var q := if m.required != [] then [("required", Arr(Distinct(m.required).value))] else [];
    assert r.fields == t + p + q;
    forall k
      ensures Get(r.fields, k) == if k == "required" && q != [] then Some(q[0].1)
        else if k == "properties" && p != [] then Some(p[0].1)
        else if k == "type" then Some(t[0].1) else None
    {
      GetConcat(t + p, q, k);
      GetConcat(t, p, k);
    }
    forall k | HasKey(r.fields, k) ensures k in ["type", "properties", "required"] {
      GetSomeIffHasKey(r.fields, k);
    }
  }

  // ----------------------------------------------------------------- oneOf

  /** A schema with `oneOf` (and no usable `$ref` or `allOf`) becomes its
      first alternative, unconverted; an empty list of alternatives raises. */
  lemma OneOfFirst(fuel: nat, schema: Json, components: Json, alternatives: seq<Json>)
    requires fuel > 0 && schema.Obj? && ResolveRef(schema, components) == Ok(None)
    requires !HasKey(schema.fields, "allOf") && Get(schema.fields, "oneOf") == Some(Arr(alternatives))
    ensures Convert(fuel, schema, components) == if alternatives == [] then Err(IndexError) else Ok(alternatives[0])
  {
    GetSomeIffHasKey(schema.fields, "oneOf");
    assert Truthy(schema);
  }

  // ------------------------------------------------------------ plain case

  predicate ReadOnly(v: Json) {
    v.Obj? && Get(v.fields, "readOnly").Some? && Truthy(Get(v.fields, "readOnly").value)
  }

  /** The schema of the last entry for `k` that is not read-only. */
  function LastKept(ps: Fields, k: string): (r: Option<Json>)
    ensures r.Some? <==> exists i :: 0 <= i < |ps| && ps[i].0 == k && !ReadOnly(ps[i].1)
    ensures r.Some? ==> exists i :: 0 <= i < |ps| && ps[i] == (k, r.value) && !ReadOnly(ps[i].1)
    decreases |ps|
  {
    if ps == [] then None
    else
      var later := LastKept(ps[1..], k);
      if later.Some? then
        assert forall i :: 0 <= i < |ps| - 1 ==> ps[1..][i] == ps[i + 1];
        later
      else if ps[0].0 == k && !ReadOnly(ps[0].1) then Some(ps[0].1)
      else
        assert forall i :: 0 < i < |ps| ==> ps[i] == ps[1..][i - 1];
        None
  }

  lemma {:induction false} ConvertPropsSpec(fuel: nat, entries: Fields, components: Json, acc: Fields, out: Fields)
    requires fuel > 0 && ConvertProps(fuel, entries, components, acc) == Ok(out)
    ensures forall k :: match LastKept(entries, k)
      case None => Get(out, k) == Get(acc, k)
      case Some(v) => Convert(fuel - 1, v, components).Ok? && Get(out, k) == Some(Convert(fuel - 1, v, components).value)
    decreases |entries|
  {
    if entries != [] {
      var readOnly := GetOr(entries[0].1, "readOnly", Bool(false)).value;
      assert Truthy(readOnly) <==> ReadOnly(entries[0].1);
      if Truthy(readOnly) {
        ConvertPropsSpec(fuel, entries[1..], components, acc, out);
      } else {
        var c := Convert(fuel - 1, entries[0].1, components).value;
        ConvertPropsSpec(fuel, entries[1..], components, Put(acc, entries[0].0, c), out);
        forall k ensures Get(Put(acc, entries[0].0, c), k) == if k == entries[0].0 then Some(c) else Get(acc, k) {
          PutGet(acc, entries[0].0, c, k);
        }
      }
    }
  }

  /** Converted properties: exactly the keys with a non-read-only entry,
      each converted from its last such entry. */
  ghost predicate KeptProperties(fuel: nat, ps: Fields, out: Fields, components: Json) {
    forall k :: match LastKept(ps, k)
      case None => Get(out, k).None?
      case Some(v) => Convert(fuel, v, components).Ok? && Get(out, k) == Some(Convert(fuel, v, components).value)
  }

  /** The plain case: `type` and the descriptive keys are copied unchanged,
      properties are converted without the read-only ones, `required` keeps
      the names that are converted properties, in order, and nothing else
      appears. */
  lemma PlainSchema(fuel: nat, schema: Json, components: Json, r: Json)
    requires fuel > 0 && schema.Obj? && schema.fields != [] && ResolveRef(schema, components) == Ok(None)
    requires !HasKey(schema.fields, "allOf") && !HasKey(schema.fields, "oneOf")
    requires Convert(fuel, schema, components) == Ok(r)
    ensures r.Obj?
    ensures Get(r.fields, "type") == Get(schema.fields, "type")
    ensures forall k :: k in DescriptiveKeys ==> Get(r.fields, k) == Get(schema.fields, k)
    ensures forall k :: HasKey(r.fields, k) ==> k in ["type", "properties", "required"] + DescriptiveKeys
    ensures Get(r.fields, "properties").Some? <==> Get(schema.fields, "properties").Some?
    ensures Get(schema.fields, "properties").Some? ==>
      Get(schema.fields, "properties").value.Obj? && Get(r.fields, "properties").value.Obj?
      && KeptProperties(fuel - 1, Get(schema.fields, "properties").value.fields, Get(r.fields, "properties").value.fields, components)
    ensures Get(r.fields, "required").Some? <==> Get(schema.fields, "required").Some?
    ensures Get(schema.fields, "required").Some? ==>
      var names := Iterate(Get(schema.fields, "required").value);
      var declared := if Get(schema.fields, "properties").Some? then Get(r.fields, "properties").value.fields else [];
      names.Ok? && Get(r.fields, "required").value.Arr?
      && FilteredNames(Get(r.fields, "required").value.items, names.value, declared)
  {
    GetSomeIffHasKey(schema.fields, "allOf");
    GetSomeIffHasKey(schema.fields, "oneOf");
    assert Truthy(schema);
    assert ConvertPlain(fuel, schema, components) == Ok(r);
    PlainResult(fuel, schema, components, r);
  }

  lemma PlainResult(fuel: nat, schema: Json, components: Json, r: Json)
    requires fuel > 0 && schema.Obj? && ConvertPlain(fuel, schema, components) == Ok(r)
    ensures r.Obj?
    ensures Get(r.fields, "type") == Get(schema.fields, "type")
    ensures forall k :: k in DescriptiveKeys ==> Get(r.fields, k) == Get(schema.fields, k)
    ensures forall k :: HasKey(r.fields, k) ==> k in ["type", "properties", "required"] + DescriptiveKeys
    ensures Get(r.fields, "properties").Some? <==> Get(schema.fields, "properties").Some?
    ensures Get(schema.fields, "properties").Some? ==>
      Get(schema.fields, "properties").value.Obj? && Get(r.fields, "properties").value.Obj?
      && KeptProperties(fuel - 1, Get(schema.fields, "properties").value.fields, Get(r.fields, "properties").value.fields, components)
    ensures Get(r.fields, "required").Some? <==> Get(schema.fields, "required").Some?
    ensures Get(schema.fields, "required").Some? ==>
      var names := Iterate(Get(schema.fields, "required").value);
      var declared := if Get(schema.fields, "properties").Some? then Get(r.fields, "properties").value.fields else [];
      names.Ok? && Get(r.fields, "required").value.Arr?
      && FilteredNames(Get(r.fields, "required").value.items, names.value, declared)
  {
    var typed := TypeEntry(schema).value;
    var props := PlainProperties(fuel, schema, components).value;
    var required := PlainRequired(schema, props).value;
    var copied := CopyKeys(schema, DescriptiveKeys).value;
    assert r == PlainLayout(typed, props, required, copied);
    TypeEntrySpec(schema);
    PlainPropertiesSpec(fuel, schema, components, props);
    PlainRequiredSpec(schema, props, required);
    CopyKeysSpec(schema, DescriptiveKeys);
    LayoutKeys(typed, props, required, copied);
    GetSomeIffHasKey(schema.fields, "properties");
    GetSomeIffHasKey(schema.fields, "required");
    assert Get(r.fields, "properties") == if props.Some? then Some(Obj(props.value)) else None;
    assert Get(r.fields, "required") == if required.Some? then Some(Arr(required.value)) else None;
  }

  /** Where each key of a plain result comes from. */
  lemma LayoutKeys(typed: Fields, props: Option<Fields>, required: Option<seq<Json>>, copied: Fields)
    requires forall k :: HasKey(typed, k) ==> k == "type"
    requires forall k :: HasKey(copied, k) ==> k in DescriptiveKeys
    ensures var fs := PlainLayout(typed, props, required, copied).fields;
      && Get(fs, "type") == Get(typed, "type")
      && Get(fs, "properties") == (if props.Some? then Some(Obj(props.value)) else None)
      && Get(fs, "required") == (if required.Some? then Some(Arr(required.value)) else None)
      && (forall k :: k in DescriptiveKeys ==> Get(fs, k) == Get(copied, k))
      && (forall k :: HasKey(fs, k) ==> k in ["type", "properties", "required"] + DescriptiveKeys)
  {
    var p := if props.Some? then [("properties", Obj(props.value))] else [];
    var q := if required.Some? then [("required", Arr(required.value))] else [];
    var fs := PlainLayout(typed, props, required, copied).fields;
    assert fs == typed + p + q + copied;
    assert "type" !in DescriptiveKeys && "properties" !in DescriptiveKeys && "required" !in DescriptiveKeys;
    forall k
      ensures Get(fs, k) ==
        if k in DescriptiveKeys then Get(copied, k)
        else if k == "required" then (if required.Some? then Some(Arr(required.value)) else None)
        else if k == "properties" then (if props.Some? then Some(Obj(props.value)) else None)
        else Get(typed, k)
      ensures Get(typed, k).Some? ==> k == "type"
    {
      Layout(typed, p, q, copied, k);
      GetSomeIffHasKey(typed, k);
      GetSomeIffHasKey(copied, k);
      if props.Some? {
        GetSingle("properties", Obj(props.value), k);
      }
      if required.Some? {
        GetSingle("required", Arr(required.value), k);
      }
    }
    forall k | HasKey(fs, k) ensures k in ["type", "properties", "required"] + DescriptiveKeys {
      GetSomeIffHasKey(fs, k);
    }
  }

  /** Lookup in the four-part layout of a plain result. */
  lemma Layout(typed: Fields, p: Fields, q: Fields, copied: Fields, k: string)
    ensures Get(typed + p + q + copied, k) ==
      if Get(copied, k).Some? then Get(copied, k)
      else if Get(q, k).Some? then Get(q, k)
      else if Get(p, k).Some? then Get(p, k)
      else Get(typed, k)
  {
    GetConcat(typed + p + q, copied, k);
    GetConcat(typed + p, q, k);
    GetConcat(typed, p, k);
  }

  lemma TypeEntrySpec(schema: Json)
    requires schema.Obj?
    ensures TypeEntry(schema).Ok?
    ensures Get(TypeEntry(schema).value, "type") == Get(schema.fields, "type")
    ensures forall k :: HasKey(TypeEntry(schema).value, k) ==> k == "type"
  {
    GetSomeIffHasKey(schema.fields, "type");
  }

  lemma PlainPropertiesSpec(fuel: nat, schema: Json, components: Json, props: Option<Fields>)
    requires fuel > 0 && schema.Obj? && PlainProperties(fuel, schema, components) == Ok(props)
    ensures props.Some? <==> HasKey(schema.fields, "properties")
    ensures props.Some? ==>
      (Get(schema.fields, "properties").value.Obj?
       && KeptProperties(fuel - 1, Get(schema.fields, "properties").value.fields, props.value, components))
  {
    GetSomeIffHasKey(schema.fields, "properties");
    if props.Some? {
      var ps := Get(schema.fields, "properties").value.fields;
      ConvertPropsSpec(fuel, ps, components, [], props.value);
    }
  }

  lemma PlainRequiredSpec(schema: Json, props: Option<Fields>, required: Option<seq<Json>>)
    requires schema.Obj? && PlainRequired(schema, props) == Ok(required)
    ensures required.Some? <==> HasKey(schema.fields, "required")
    ensures required.Some? ==>
      var names := Iterate(Get(schema.fields, "required").value);
      var declared := if props.Some? then props.value else [];
      names.Ok? && FilteredNames(required.value, names.value, declared)
  {
    GetSomeIffHasKey(schema.fields, "required");
  }

  /** The descriptive keys are copied exactly when present. */
  lemma {:induction false} CopyKeysSpec(schema: Json, keys: seq<string>)
    requires schema.Obj?
    ensures CopyKeys(schema, keys).Ok?
    ensures forall k :: Get(CopyKeys(schema, keys).value, k) == if k in keys then Get(schema.fields, k) else None
    ensures forall k :: HasKey(CopyKeys(schema, keys).value, k) ==> k in keys
    decreases |keys|
  {
    if keys != [] {
      CopyKeysSpec(schema, keys[1..]);
      GetSomeIffHasKey(schema.fields, keys[0]);
      var rest := CopyKeys(schema, keys[1..]).value;
      var first := if HasKey(schema.fields, keys[0]) then [(keys[0], Get(schema.fields, keys[0]).value)] else [];
      assert CopyKeys(schema, keys).value == first + rest;
      forall k
        ensures Get(first + rest, k) == if k in keys then Get(schema.fields, k) else None
      {
        GetConcat(first, rest, k);
        assert k in keys <==> k == keys[0] || k in keys[1..];
      }
      forall k | HasKey(first + rest, k) ensures k in keys {
        GetSomeIffHasKey(first + rest, k);
      }
    }
  }
}

=== FILE: text.dfy ===
/** String operations the core relies on, with Python's semantics:
    substring search (`in`, `str.find`), `str.split`, `str.replace`,
    `str.upper` and slicing. */
module Text {
  import opened Wrappers

  /** `p` occurs in `s` starting at index `i`. */
  predicate OccursAt(s: string, p: string, i: int) {
    0 <= i && i + |p| <= |s| && s[i..i + |p|] == p
  }

  lemma OccursAtTail(s: string, p: string, j: nat)
    requires |s| > 0
    ensures OccursAt(s[1..], p, j) <==> OccursAt(s, p, j + 1)
  {
    if 0 <= j && j + |p| <= |s[1..]| {
      assert s[1..][j..j + |p|] == s[j + 1..j + 1 + |p|];
    }
  }

  /** The first index at which `p` occurs in `s` (Python's `s.find(p)`). */
  function IndexOf(s: string, p: string): (r: Option<nat>)
    ensures r.Some? ==> OccursAt(s, p, r.value)
    ensures r.Some? ==> forall j :: 0 <= j < r.value ==> !OccursAt(s, p, j)
    ensures r.None? ==> forall j :: !OccursAt(s, p, j)
    decreases |s|
  {
    if |s| < |p| then None
    else if p <= s then Some(0)
    else
      assert !OccursAt(s, p, 0);
      match IndexOf(s[1..], p)
      case None =>
        assert forall j :: !OccursAt(s, p, j) by {
          forall j | OccursAt(s, p, j)
            ensures false
          {
            OccursAtTail(s, p, j - 1);
          }
        }
        None
      case Some(i) =>
        assert OccursAt(s, p, i + 1) by {
          OccursAtTail(s, p, i);
        }
        assert forall j :: 0 <= j < i + 1 ==> !OccursAt(s, p, j) by {
          forall j | 0 < j < i + 1 && OccursAt(s, p, j)
            ensures false
          {
            OccursAtTail(s, p, j - 1);
          }
        }
        Some(i + 1)
  }

  /** Python's `p in s` for strings. */
  predicate Contains(s: string, p: string) {
    IndexOf(s, p).Some?
  }

  /** Python's `s.split(sep)` for a non-empty separator. */
  function Split(s: string, sep: string): (parts: seq<string>)
    requires |sep| > 0
    ensures |parts| >= 1
    decreases |s|
  {
    match IndexOf(s, sep)
    case None => [s]
    case Some(i) => [s[..i]] + Split(s[i + |sep|..], sep)
  }

  /** Python's `sep.join(parts)`. */
  function Join(parts: seq<string>, sep: string): string {
    if |parts| == 0 then ""
    else if |parts| == 1 then parts[0]
    else parts[0] + sep + Join(parts[1..], sep)
  }

  /** Python's `s.replace(pat, rep)` for a non-empty `pat`: scanning from
      the left, an occurrence is replaced and the scan resumes after it, so
      the replaced occurrences are the leftmost non-overlapping ones. */
  function ReplaceAll(s: string, pat: string, rep: string): string
    requires |pat| > 0
    decreases |s|
  {
    if s == [] then []
    else if pat <= s then rep + ReplaceAll(s[|pat|..], pat, rep)
    else [s[0]] + ReplaceAll(s[1..], pat, rep)
  }

  /** Splitting and re-joining with the same separator gives back the string. */
  lemma {:induction false} SplitJoin(s: string, sep: string)
    requires |sep| > 0
    ensures Join(Split(s, sep), sep) == s
    decreases |s|
  {
    match IndexOf(s, sep)
    case None =>
    case Some(i) =>
      var rest := s[i + |sep|..];
      var parts := Split(rest, sep);
      SplitJoin(rest, sep);
      var all := Split(s, sep);
      assert all == [s[..i]] + parts;
      assert all[1..] == parts;
      assert Join(all, sep) == s[..i] + sep + Join(parts, sep);
      assert s == s[..i] + sep + rest;
  }

  /** The pattern starts a string exactly when it occurs at index 0. */
  lemma PrefixIsOccurrence(s: string, p: string)
    ensures p <= s <==> OccursAt(s, p, 0)
  {
    if OccursAt(s, p, 0) {
      assert s[..|p|] == p;
    }
  }

  /** An occurrence in `b` is one in `a + b`, shifted by `|a|`. */
  lemma OccursShift(a: string, b: string, pat: string, j: nat)
    ensures OccursAt(a + b, pat, |a| + j) <==> OccursAt(b, pat, j)
  {
    if |a| + j + |pat| <= |a + b| {
      assert (a + b)[|a| + j..|a| + j + |pat|] == b[j..j + |pat|];
    }
  }

  /** An occurrence anywhere is found by `in`. */
  lemma ContainsAt(s: string, p: string, i: nat)
    requires OccursAt(s, p, i)
    ensures Contains(s, p)
  {
  }

  /** What occurs in `b` occurs in `a + b`. */
  lemma ContainsShift(a: string, b: string, p: string)
    requires Contains(b, p)
    ensures Contains(a + b, p)
  {
    var k := IndexOf(b, p).value;
    OccursShift(a, b, p, k);
    ContainsAt(a + b, p, |a| + k);
  }

  /** Replacing a pattern that does not occur changes nothing. */
  lemma {:induction false} ReplaceAllNone(s: string, pat: string, rep: string)
    requires |pat| > 0 && forall j :: !OccursAt(s, pat, j)
    ensures ReplaceAll(s, pat, rep) == s
    decreases |s|
  {
    if s != [] {
      PrefixIsOccurrence(s, pat);
      forall j ensures !OccursAt(s[1..], pat, j) {
        if j >= 0 {
          OccursAtTail(s, pat, j);
        }
      }
      ReplaceAllNone(s[1..], pat, rep);
      assert s == [s[0]] + s[1..];
    }
  }

  /** Replacing in a string that starts with the pattern. */
  lemma ReplaceAtStart(pat: string, b: string, rep: string)
    requires |pat| > 0
    ensures ReplaceAll(pat + b, pat, rep) == rep + ReplaceAll(b, pat, rep)
  {
    assert (pat + b)[|pat|..] == b;
  }

  /** When no occurrence of `pat` starts before index `k`, replacing
      leaves `s[..k]` as it is and replaces in `s[k..]`. */
  lemma {:induction false} ReplaceFrom(s: string, pat: string, rep: string, k: nat)
    requires |pat| > 0 && k <= |s|
    requires forall j :: 0 <= j < k ==> !OccursAt(s, pat, j)
    ensures ReplaceAll(s, pat, rep) == s[..k] + ReplaceAll(s[k..], pat, rep)
    decreases k
  {
    if k == 0 {
      assert s[k..] == s;
    } else {
      var t := s[1..];
      forall j | 0 <= j < k - 1
        ensures !OccursAt(t, pat, j)
      {
        OccursAtTail(s, pat, j);
      }
      ReplaceFrom(t, pat, rep, k - 1);
      PrefixIsOccurrence(s, pat);
      assert t[k - 1..] == s[k..];
      assert s[..k] == [s[0]] + t[..k - 1];
    }
  }

  /** When no occurrence of `pat` starts inside `a`, replacing in `a + b`
      leaves `a` as it is and replaces in `b`. */
  lemma ReplaceAfter(a: string, b: string, pat: string, rep: string)
    requires |pat| > 0
    requires forall j :: 0 <= j < |a| ==> !OccursAt(a + b, pat, j)
    ensures ReplaceAll(a + b, pat, rep) == a + ReplaceAll(b, pat, rep)
  {
    var s := a + b;
    ReplaceFrom(s, pat, rep, |a|);
    assert s[..|a|] == a && s[|a|..] == b;
  }

  /** One step of `replace`: the text before the first occurrence, the
      replacement, then the rest replaced. */
  lemma ReplaceAllStep(s: string, pat: string, rep: string, k: nat)
    requires |pat| > 0 && IndexOf(s, pat) == Some(k)
    ensures ReplaceAll(s, pat, rep) == s[..k] + rep + ReplaceAll(s[k + |pat|..], pat, rep)
  {
    ReplaceAtFirst(s, pat, rep, k);
  }

  /** Replacing at the first occurrence of the pattern, found by hand. */
  lemma ReplaceAtFirst(s: string, pat: string, rep: string, k: nat)
    requires |pat| > 0 && OccursAt(s, pat, k)
    requires forall j :: 0 <= j < k ==> !OccursAt(s, pat, j)
    ensures ReplaceAll(s, pat, rep) == s[..k] + rep + ReplaceAll(s[k + |pat|..], pat, rep)
  {
    var x := s[k..];
    var y := s[k + |pat|..];
    assert x[|pat|..] == y;
    ReplaceFrom(s, pat, rep, k);
    ReplaceOccurrence(x, pat, rep);
  }

  /** Replacing in a string that starts with an occurrence of the pattern. */
  lemma ReplaceOccurrence(s: string, pat: string, rep: string)
    requires |pat| > 0 && OccursAt(s, pat, 0)
    ensures ReplaceAll(s, pat, rep) == rep + ReplaceAll(s[|pat|..], pat, rep)
  {
    PrefixIsOccurrence(s, pat);
  }

  /** `s.replace(pat, rep)` is `rep.join(s.split(pat))`. */
  lemma {:induction false} ReplaceAllIsJoinOfSplit(s: string, pat: string, rep: string)
    requires |pat| > 0
    ensures ReplaceAll(s, pat, rep) == Join(Split(s, pat), rep)
    decreases |s|
  {
    match IndexOf(s, pat)
    case None =>
      ReplaceAllNone(s, pat, rep);
    case Some(i) =>
      ReplaceAllStep(s, pat, rep, i);
      ReplaceAllIsJoinOfSplit(s[i + |pat|..], pat, rep);
  }

  /** Replacing a pattern that does not occur changes nothing, and replacing a
      pattern by itself changes nothing. */
  lemma ReplaceAllIdentity(s: string, pat: string, rep: string)
    requires |pat| > 0
    ensures !Contains(s, pat) ==> ReplaceAll(s, pat, rep) == s
    ensures ReplaceAll(s, pat, pat) == s
  {
    ReplaceAllIsJoinOfSplit(s, pat, pat);
    SplitJoin(s, pat);
  }

  /** When the first occurrence of `sep` in `a + sep + b` is the one after
      `a`, splitting yields `a` followed by the pieces of `b`. */
  lemma SplitAtFirst(a: string, sep: string, b: string)
    requires |sep| > 0
    requires forall j :: 0 <= j < |a| ==> !OccursAt(a + sep + b, sep, j)
    ensures Split(a + sep + b, sep) == [a] + Split(b, sep)
  {
    var s := a + sep + b;
    assert OccursAt(s, sep, |a|) by {
      assert s[|a|..|a| + |sep|] == sep;
    }
    assert s[..|a|] == a;
    assert s[|a| + |sep|..] == b;
  }

  /** An occurrence of `q` that no occurrence of `pat` overlaps survives the
      replacement of `pat`. */
  lemma {:induction false} ReplaceKeeps(s: string, pat: string, rep: string, q: string, i: nat)
    requires |pat| > 0 && OccursAt(s, q, i)
    requires forall j :: OccursAt(s, pat, j) ==> j + |pat| <= i || i + |q| <= j
    ensures Contains(ReplaceAll(s, pat, rep), q)
    decreases |s|
  {
    var r := ReplaceAll(s, pat, rep);
    PrefixIsOccurrence(s, pat);
    if q == [] {
      assert IndexOf(r, q) == Some(0);
    } else if OccursAt(s, pat, 0) {
      var rest := s[|pat|..];
      assert s == s[..|pat|] + rest;
      OccursShift(s[..|pat|], rest, q, i - |pat|);
      forall j | OccursAt(rest, pat, j)
        ensures j + |pat| <= i - |pat| || i - |pat| + |q| <= j
      {
        OccursShift(s[..|pat|], rest, pat, j);
      }
      ReplaceKeeps(rest, pat, rep, q, i - |pat|);
      ContainsShift(rep, ReplaceAll(rest, pat, rep), q);
    } else if i == 0 {
      assert s == q + s[|q|..];
      ReplaceAfter(q, s[|q|..], pat, rep);
      assert r[..|q|] == q;
      ContainsAt(r, q, 0);
    } else {
      forall j | OccursAt(s[1..], pat, j)
        ensures j + |pat| <= i - 1 || i - 1 + |q| <= j
      {
        OccursAtTail(s, pat, j);
      }
      OccursAtTail(s, q, i - 1);
      ReplaceKeeps(s[1..], pat, rep, q, i - 1);
      ContainsShift([s[0]], ReplaceAll(s[1..], pat, rep), q);
    }
  }

  /** Splitting at a one-character separator that `a` does not contain. */
  lemma SplitAtChar(a: string, c: char, b: string)
    requires c !in a
    ensures Split(a + [c] + b, [c]) == [a] + Split(b, [c])
  {
    var s := a + [c] + b;
    forall j | 0 <= j < |a|
      ensures !OccursAt(s, [c], j)
    {
      assert s[j] == a[j];
    }
    SplitAtFirst(a, [c], b);
  }

  function UpperChar(c: char): char {
    if 'a' <= c <= 'z' then (c as int - 32) as char else c
  }

  function LowerChar(c: char): char {
    if 'A' <= c <= 'Z' then (c as int + 32) as char else c
  }

  /** `s.upper()`, restricted to the ASCII letters. */
  function Upper(s: string): (r: string)
    ensures |r| == |s|
    ensures forall i :: 0 <= i < |s| ==> r[i] == UpperChar(s[i])
  {
    if s == [] then [] else [UpperChar(s[0])] + Upper(s[1..])
  }

  /** `s[:n]` for a non-negative `n`. */
  function Take(s: string, n: nat): (r: string)
    ensures r <= s
    ensures |r| == if |s| <= n then |s| else n
  {
    if |s| <= n then s else s[..n]
  }

  function DigitChar(d: nat): char
    requires d < 10
  {
    "0123456789"[d]
  }

  /** Decimal notation of a natural number, without leading zeros. */
  function NatToString(n: nat): (r: string)
    ensures |r| >= 1
    ensures forall i :: 0 <= i < |r| ==> '0' <= r[i] <= '9'
    ensures n >= 10 ==> r[0] != '0'
    decreases n
  {
    if n < 10 then [DigitChar(n)] else NatToString(n / 10) + [DigitChar(n % 10)]
  }

  /** Python's `str(n)` for an integer. */
  function IntToString(n: int): string {
    if n < 0 then "-" + NatToString(-n) else NatToString(n)
  }
}

=== FILE: wrappers.dfy ===
/** Failure-compatible wrappers used throughout the model: `Option` for
    absent values and `Result` for computations that can raise. */
module Wrappers {

  datatype Option<+T> = None | Some(value: T)

  /** `Err` carries the exception the modelled Python code would raise. */
  datatype Result<+T, +E> = Ok(value: T) | Err(error: E) {

    predicate IsFailure() {
      Err?
    }

    function PropagateFailure<U>(): Result<U, E>
      requires Err?
    {
      Err(error)
    }

    function Extract(): T
      requires Ok?
    {
      value
    }
  }
}
